=== FILE: README.md ===
# Inventory management web app: pure core in Dafny

This project models the logic of a small inventory-management web app, keeping it separate from its React views and its MongoDB storage. The app keeps SKUs, suppliers, warehouses and stock transactions. The model covers the following:

- **Dashboard figures** (`DashboardData`). The inventory valuation is Σ currentStock × price. The low-stock rows are those with currentStock < minLvl, and the over-stock rows those with currentStock > maxLvl.
- **List-page filters and their resets**: the SKU master, SKU-vendor mapping, supplier, warehouse and transaction pages. Each filter is a chain of `Array.prototype.filter` calls, guarded by "is this input non-empty".
- **SKU status toggle** on the SKU master page.
- **Vendor-mapping edit state** (`SkuVendorMapping`):
  - the snapshot of each SKU's five vendor slots, taken on load;
  - the single-slot edit, with change detection against that snapshot;
  - the save, which sends one mapping per SKU and rebuilds the snapshot.
- **Stock-adjustment form** (`AdjustmentModal`): its initial state and its change handler that auto-fills the partner field.
- **Recent-activity merge** on the dashboard: recent transactions and recently added SKUs, concatenated and ordered newest first. Chart labels are paired with chart data.
- **Mongoose schemas** for SKU, Transaction, Supplier and Warehouse:
  - the `trim`/`lowercase` setters;
  - `required`, `min: 0`, `enum` and the integer validator;
  - defaults;
  - the `unique` indexes, modelled as a check made when a record is inserted into a collection.

Each piece is modelled on these terms:

- JavaScript values with possibly missing properties are `Option`s.
- `x || ''` is `Values.OrEmpty`.
- The truthiness test `x && …` on a string is `Values.Truthy`.
- `toLowerCase` is `Text.ToLower`, and `trim` is `Text.Trim`, over the ECMAScript white-space and line-terminator characters.
- Numbers are exact `real`s. Dates are integer timestamps.
- Every page filter is stated in two ways: the chain of `FilterIf` steps the page runs, and one `Keep` with the conjunction of all the active tests. A lemma proves the two equal (for the vendor-mapping page, whenever its item-name step does not throw). The results are shown to be order-preserving subsequences of the input, holding exactly the records that pass every active test.
- A schema's `Validate` returns either the stored record or the list of path errors. Its partner is `RevalidateStored`: a stored record, fed back in, validates to itself.

Modules:

| module | file | models |
|---|---|---|
| `Values` | values.dfy | missing properties, the empty-string default, truthiness |
| `Text` | text.dfy | `trim`, `toLowerCase`, case-insensitive equality, `includes` |
| `Seqs` | seqs.dfy | `filter`, `find`, `map` and subsequence facts |
| `Schema` | schema.dfy | shared Mongoose validators and setters |
| `SkuSchema`, `TransactionSchema`, `SupplierSchema`, `WarehouseSchema` | *_schema.dfy | the four models |
| `DashboardData` | dashboard_data.dfy | the computation inside `getDashboardData` |
| `DashboardPage` | dashboard_page.dfy | activity merge and chart data |
| `SkuMaster`, `SkuVendorMapping`, `SuppliersPage`, `WarehousesPage`, `TransactionsPage` | page files | page filters, resets, status toggle, vendor editing |
| `AdjustmentModal` | adjustment_modal.dfy | the adjustment form |

## Model

| member | source | states |
|---|---|---|
| Values.TruthyIsNonEmptyOrEmpty | src/pages/Warehouses.tsx:56 | a property is truthy exactly when `x \|\| ''` is not the empty string |
| Text.TrimIsInfix | src/models/SKU.ts:7 | `trim` returns a contiguous slice of its input |
| Text.TrimIdempotent | src/models/SKU.ts:13 | trimming a trimmed value changes nothing |
| Text.ToLowerIdempotent | src/pages/SkuMaster.tsx:77 | lower-casing a lower-cased string changes nothing |
| Text.SameIgnoringCaseProperties | src/pages/SkuMaster.tsx:77 | case-insensitive equality is an equivalence that keeps length; only '' equals '' |
| Text.ContainsProperties | src/pages/Transactions.tsx:43 | `includes` holds for the whole string and for ''; a needle of the same length must be equal |
| Seqs.KeepMembership | src/pages/SkuMaster.tsx:77 | `filter` keeps x exactly when x is in the input and passes the test |
| Seqs.KeepIsSubsequence | src/pages/SkuMaster.tsx:74-96 | a filter result is an order-preserving subsequence of its input |
| Seqs.KeepUnique | src/utils/api.ts:179-180 | the filter result is the only subsequence that has the filter's length and passes the test |
| Seqs.KeepKeep | src/pages/SkuMaster.tsx:74-96 | two successive filters equal one filter with the conjunction |
| Seqs.Find | src/components/modals/AddAdjustmentModal.tsx:44 | `find` returns the first element that passes, and nothing when none does |
| Seqs.FindConstant | src/components/modals/AddAdjustmentModal.tsx:43-46 | `find` with a callback that ignores its argument returns the first element or nothing |
| Schema.RequiredText | src/models/SKU.ts:4-8 | a required string is accepted exactly when present and non-empty after trim; otherwise the one error is Required |
| Schema.RequiredNonNegative | src/models/SKU.ts:20-24 | a required number is accepted exactly when present and ≥ 0; a missing one is Required and a negative one BelowMin |
| SkuSchema.Validate | src/models/SKU.ts:3-77 | a SKU is accepted exactly when all ten required fields are present with min 0 on the numbers and status, when given, is 'Active' or 'Inactive'; each string is stored as the trimmed input and each number as given; currentStock defaults to openingStock, status to 'Active' and addedOn to the current time |
| SkuSchema.RevalidateStored | src/models/SKU.ts:3-77 | a stored SKU validates to itself |
| SkuSchema.MinAboveMaxAccepted | src/models/SKU.ts:20-29 | minLvl above maxLvl is accepted |
| SkuSchema.NegativeCurrentStockAccepted | src/models/SKU.ts:50-55 | a negative currentStock is accepted and kept |
| SkuSchema.Insert | src/models/SKU.ts:9-14 | an insert succeeds exactly when the record validates and its trimmed sku is not yet stored; it appends the record and keeps skus distinct |
| SkuSchema.PaddedSkuCollides | src/models/SKU.ts:12-13 | a sku that differs from a stored one only by surrounding spaces is rejected |
| TransactionSchema.ParseKind | src/models/Transaction.ts:23-27 | a parsed type spells exactly one of the four enum values |
| TransactionSchema.ParseKindName | src/models/Transaction.ts:26 | each enum value parses back to itself |
| TransactionSchema.Validate | src/models/Transaction.ts:3-38 | a transaction is accepted exactly when sku and itemName are present, quantity is an integer and type is in the enum; sku and itemName are stored trimmed, quantity and type as given; remarks stay optional and are stored trimmed when given; timestamp defaults to the current time |
| TransactionSchema.RevalidateStored | src/models/Transaction.ts:3-38 | a stored transaction validates to itself |
| TransactionSchema.QuantitySign | src/models/Transaction.ts:15-22 | zero and negative quantities are accepted; 2.5 is rejected with a NotInteger error |
| TransactionSchema.KindIsCaseSensitive | src/models/Transaction.ts:26 | no lower-cased string is a type, since every enum spelling starts with a capital |
| SupplierSchema.StoredEmail | src/models/Supplier.ts:53-59 | a stored e-mail is trimmed and lower-case, and non-empty when one was given |
| SupplierSchema.Validate | src/models/Supplier.ts:3-71 | a supplier is accepted exactly when its ten required fields are present; every required string is stored as the trimmed input, emailId also lower-cased; address lines 2 and 3 stay optional and are stored trimmed when given |
| SupplierSchema.RevalidateStored | src/models/Supplier.ts:3-71 | a stored supplier validates to itself |
| SupplierSchema.Insert | src/models/Supplier.ts:47-59 | an insert succeeds exactly when the record validates and neither its gstNo nor its lower-cased emailId is stored |
| SupplierSchema.EmailCaseCollision | src/models/Supplier.ts:53-59 | e-mails that differ only in letter case collide |
| WarehouseSchema.Validate | src/models/Warehouse.ts:3-26 | a warehouse is accepted exactly when name, location and manager are present; the manager error appears exactly when the manager is missing |
| WarehouseSchema.RevalidateStored | src/models/Warehouse.ts:3-26 | a stored warehouse validates to itself |
| WarehouseSchema.Insert | src/models/Warehouse.ts:4-9 | an insert succeeds exactly when the record validates and its trimmed name is not yet stored |
| WarehouseSchema.DuplicateNameRejected | src/models/Warehouse.ts:4-9 | a second warehouse with the same trimmed name is rejected as a duplicate |
| DashboardData.ReduceIsTotal | src/utils/api.ts:174-176 | the left fold started at acc equals acc plus the sum of currentStock × price |
| DashboardData.Valuation | src/utils/api.ts:174-176 | the valuation is the sum of currentStock × price over all SKUs, 0 for none |
| DashboardData.TotalValueAppend | src/utils/api.ts:174-176 | the valuation of two lists joined is the sum of their valuations |
| DashboardData.ValuationIgnoresStatus | src/utils/api.ts:174-176 | inactive SKUs count like active ones |
| DashboardData.ValuationNonNegative | src/utils/api.ts:174-176 | with non-negative stock and prices the valuation is non-negative |
| DashboardData.LowStock | src/utils/api.ts:179-181 | one row per SKU below minLvl, each with currentStock < the level shown |
| DashboardData.OverStock | src/utils/api.ts:183-185 | one row per SKU above maxLvl, each with currentStock > the level shown |
| DashboardData.LowStockExact | src/utils/api.ts:179-181 | the low-stock rows are the rows of the below-minimum SKUs, in input order |
| DashboardData.OverStockExact | src/utils/api.ts:183-185 | the over-stock rows are the rows of the above-maximum SKUs, in input order |
| DashboardData.LowStockMembership | src/utils/api.ts:179-181 | a SKU is listed exactly when currentStock < minLvl (not at equality), and every row comes from such a SKU |
| DashboardData.OverStockMembership | src/utils/api.ts:183-185 | a SKU is listed exactly when currentStock > maxLvl (not at equality), and every row comes from such a SKU |
| DashboardData.LowAndOverDisjoint | src/utils/api.ts:179-185 | with minLvl ≤ maxLvl no SKU is both low and over |
| DashboardData.Summarize | src/utils/api.ts:174-194 | the response carries the valuation and the low- and over-stock lists themselves, one row per such SKU |
| DashboardPage.SortNewestFirst | src/pages/Dashboard.tsx:81 | the sorted list is a permutation of its input |
| DashboardPage.SortIsNewestFirst | src/pages/Dashboard.tsx:81 | the sorted list has non-increasing timestamps |
| DashboardPage.SortIsStable | src/pages/Dashboard.tsx:81 | activities with equal timestamps keep their order |
| DashboardPage.RefreshActivities | src/pages/Dashboard.tsx:74-87 | without a transactions array the activities are unchanged; otherwise they are a permutation of transactions followed by added SKUs (missing counts as empty) |
| DashboardPage.RefreshMerges | src/pages/Dashboard.tsx:77-82 | a refresh shows all transactions and added SKUs, newest first, ties in arrival order |
| DashboardPage.Split | src/pages/Dashboard.tsx:107-127 | labels and data have the entry count and pair up index by index |
| DashboardPage.SplitZip | src/pages/Dashboard.tsx:107-127 | zipping labels with data gives back the entries |
| DashboardPage.ObjectChart | src/pages/Dashboard.tsx:107-127 | a missing object gives an empty chart |
| DashboardPage.GrowthChart | src/pages/Dashboard.tsx:129-135 | months and values pair up index by index with the growth points; missing gives an empty chart |
| SkuMaster.FilterSkusIsConjunction | src/pages/SkuMaster.tsx:73-97 | the five guarded filters equal one filter by the conjunction of the active tests |
| SkuMaster.FilterSkusExact | src/pages/SkuMaster.tsx:73-97 | the result is a subsequence that holds exactly the SKUs matching every non-empty filter |
| SkuMaster.MissingFieldDropped | src/pages/SkuMaster.tsx:77-93 | a SKU lacking a filtered property is dropped |
| SkuMaster.CaseInsensitive | src/pages/SkuMaster.tsx:77-93 | matching ignores letter case |
| SkuMaster.NoFiltersKeepsAll | src/pages/SkuMaster.tsx:73-97 | with all filters empty every SKU is shown |
| SkuMaster.FilterSkusIdempotent | src/pages/SkuMaster.tsx:73-97 | filtering twice is filtering once |
| SkuMaster.ResetFilters | src/pages/SkuMaster.tsx:99-106 | a reset clears the filters and shows what the cleared filters select |
| SkuMaster.ToggleStatus | src/pages/SkuMaster.tsx:130 | the new status is 'Inactive' exactly when the current one is 'Active', otherwise 'Active' |
| SkuMaster.ToggleTwice | src/pages/SkuMaster.tsx:130 | toggling twice restores a valid status; any other value becomes 'Inactive' |
| SkuVendorMapping.SetVendor | src/pages/SkuVendorMapping.tsx:85-88 | writing slot n sets that slot and leaves the other slots, sku and itemName alone |
| SkuVendorMapping.BuildSnapshot | src/pages/SkuVendorMapping.tsx:36-45 | the snapshot has an entry for exactly the skus in the rows |
| SkuVendorMapping.SnapshotLastWins | src/pages/SkuVendorMapping.tsx:37-45 | a sku's entry is the slots of the last row with that sku, missing slots as '' |
| SkuVendorMapping.AnyChangedExists | src/pages/SkuVendorMapping.tsx:96-107 | hasChanges holds exactly when some row with a snapshot entry differs from it |
| SkuVendorMapping.UpdateRows | src/pages/SkuVendorMapping.tsx:83-91 | only rows with the edited sku change, and only in the edited slot |
| SkuVendorMapping.Mount | src/pages/SkuVendorMapping.tsx:6-13 | the page starts with no rows, an empty snapshot and hasChanges false |
| SkuVendorMapping.Load | src/pages/SkuVendorMapping.tsx:28-51 | a successful load replaces the rows and snapshots each sku's last row, leaving hasChanges as it was; a failed load changes nothing |
| SkuVendorMapping.StaleFlagSurvivesRefresh | src/pages/SkuVendorMapping.tsx:28-51 | after an unsaved edit, Refresh keeps hasChanges set although the rows then equal their snapshot |
| SkuVendorMapping.ChangeVendor | src/pages/SkuVendorMapping.tsx:82-110 | an edit keeps the snapshot and sets the flag exactly when some row differs from its entry |
| SkuVendorMapping.OwnSnapshotUnchanged | src/pages/SkuVendorMapping.tsx:36-45 | rows with distinct skus show no change against their own snapshot |
| SkuVendorMapping.ChangeDetected | src/pages/SkuVendorMapping.tsx:82-110 | after a load, one edit sets the flag exactly when the new value differs from the slot's loaded value, whatever the flag was before |
| SkuVendorMapping.RowWithoutEntryIgnored | src/pages/SkuVendorMapping.tsx:97-98 | a row whose sku has no snapshot entry never counts as changed |
| SkuVendorMapping.RepeatedSkuReportsChange | src/pages/SkuVendorMapping.tsx:37-45 | with a repeated sku, rows compared with their own snapshot report a change |
| SkuVendorMapping.Mappings | src/pages/SkuVendorMapping.tsx:114-121 | one mapping per row in row order, with the row's sku and its slots, missing as '' |
| SkuVendorMapping.Save | src/pages/SkuVendorMapping.tsx:112-146 | a successful save clears the flag and snapshots the current rows; a failed save changes nothing |
| SkuVendorMapping.SaveSynchronises | src/pages/SkuVendorMapping.tsx:112-138 | after a save of distinct skus no row differs from the snapshot, and each sent mapping equals its snapshot entry |
| SkuVendorMapping.FilterRows | src/pages/SkuVendorMapping.tsx:62-74 | the filter fails exactly when the item-name filter is set and a row passing the sku filter has no itemName |
| SkuVendorMapping.FilterRowsIsConjunction | src/pages/SkuVendorMapping.tsx:62-74 | when the filter does not throw, its two guarded steps equal one filter by the conjunction of the active searches |
| SkuVendorMapping.FilterRowsExact | src/pages/SkuVendorMapping.tsx:62-74 | otherwise the result is a subsequence holding exactly the rows equal, ignoring case, to each non-empty input |
| SkuVendorMapping.ResetFilters | src/pages/SkuVendorMapping.tsx:76-80 | a reset clears both inputs and shows what the cleared filter selects |
| SuppliersPage.FilterSuppliersIsConjunction | src/pages/Suppliers.tsx:40-56 | the three guarded filters equal one filter by the conjunction |
| SuppliersPage.FilterSuppliersExact | src/pages/Suppliers.tsx:40-56 | the result is a subsequence holding exactly the matching suppliers |
| SuppliersPage.MissingFieldNeverMatches | src/pages/Suppliers.tsx:44-52 | a supplier lacking a filtered property is dropped |
| SuppliersPage.NameFilterEmptiesSchemaShapedList | src/pages/Suppliers.tsx:44 | on records without `SupplierName` any name filter shows nothing |
| SuppliersPage.NoFiltersKeepsAll | src/pages/Suppliers.tsx:40-56 | with all filters empty every supplier is shown |
| SuppliersPage.FilterSuppliersIdempotent | src/pages/Suppliers.tsx:40-56 | filtering twice is filtering once |
| SuppliersPage.ResetFilters | src/pages/Suppliers.tsx:58-63 | a reset clears the filters and shows what the cleared filters select |
| WarehousesPage.FilterWarehousesIsConjunction | src/pages/Warehouses.tsx:52-64 | the two guarded filters equal one filter by the conjunction |
| WarehousesPage.FilterWarehousesExact | src/pages/Warehouses.tsx:52-64 | the result is a subsequence holding exactly the matching warehouses; a missing filtered property drops the record |
| WarehousesPage.NoFiltersKeepsAll | src/pages/Warehouses.tsx:52-64 | with both filters empty every warehouse is shown |
| WarehousesPage.FilterWarehousesIdempotent | src/pages/Warehouses.tsx:52-64 | filtering twice is filtering once |
| WarehousesPage.ResetFilters | src/pages/Warehouses.tsx:66-70 | a reset clears the filters and shows what the cleared filters select |
| TransactionsPage.ApplyFiltersIsConjunction | src/pages/Transactions.tsx:39-61 | the guarded filters equal one filter by the conjunction |
| TransactionsPage.ApplyFiltersExact | src/pages/Transactions.tsx:39-61 | the result is a subsequence holding exactly the matching transactions |
| TransactionsPage.SearchIsSubstring | src/pages/Transactions.tsx:43 | any row whose product name has a slice equal to the search, ignoring case, is kept |
| TransactionsPage.KindIsCaseSensitive | src/pages/Transactions.tsx:47 | a set type keeps a row exactly when its type cell is spelled identically, case included |
| TransactionsPage.DateRangeInclusive | src/pages/Transactions.tsx:50-58 | transactions exactly at either end of the range are kept |
| TransactionsPage.AfterEndInstantExcluded | src/pages/Transactions.tsx:50-58 | a transaction stamped after the end instant, such as later on the end day, is dropped |
| TransactionsPage.OneDateIgnored | src/pages/Transactions.tsx:50 | with only one date set the date filter is off |
| TransactionsPage.NoFiltersKeepsAll | src/pages/Transactions.tsx:39-61 | with no filters every transaction is shown |
| TransactionsPage.ApplyFiltersIdempotent | src/pages/Transactions.tsx:39-61 | filtering twice is filtering once |
| TransactionsPage.ResetFilters | src/pages/Transactions.tsx:63-69 | a reset clears the filters and shows what the cleared filters select |
| AdjustmentModal.InitialForm | src/components/modals/AddAdjustmentModal.tsx:12-18 | the form starts with all five fields '' |
| AdjustmentModal.HandleChange | src/components/modals/AddAdjustmentModal.tsx:38-85 | qty, type, remarks and empty values set only their field. A non-empty itemName puts the first SKU option in sku exactly when the first option with that name has a sku and the first option is not the empty string. A non-empty sku puts the first item name in itemName exactly when the first option with that sku has an item name and that first name is non-empty |
| AdjustmentModal.FilledSkuIsFirstOption | src/components/modals/AddAdjustmentModal.tsx:43-53 | picking the second item fills sku with the first option, which belongs to another item |
| AdjustmentModal.FilledItemNameIsFirstOption | src/components/modals/AddAdjustmentModal.tsx:62-72 | typing the second sku fills itemName with the first item name |
| AdjustmentModal.BareOptionsNeverFill | src/components/modals/AddAdjustmentModal.tsx:43-65 | options without sku or itemName properties never trigger a fill |
| AdjustmentModal.BlankFirstOptionNeverFills | src/components/modals/AddAdjustmentModal.tsx:43-53 | when the first SKU option is the empty string, choosing an item that a later option names leaves sku unchanged, because the outer find returns a falsy value |
| AdjustmentModal.MatchingHandleChange | src/components/modals/AddAdjustmentModal.tsx:41-78 | the fill comes from an option whose item name (or sku) equals the typed value |
| AdjustmentModal.WrittenAndMatchingDiffer | src/components/modals/AddAdjustmentModal.tsx:43-46 | on one input the handler as written and the matching handler fill different skus |

## Left out

- HTTP and database access (`api.ts` requests, `countDocuments`, `find`): the model takes the fetched lists as parameters. The four counts in the dashboard response are not modelled.
- The unique indexes are modelled as a lookup at insert time. Concurrent inserts, index creation and updates of existing records are not modelled.
- Mongoose casting: a numeric path given a non-numeric string fails with a cast error before any validator runs. The model's numeric inputs are already numbers, so they cannot express that failure.
- `timestamps: true` (createdAt/updatedAt) and the SKU vendor1–vendor5 string fields: neither carries a constraint.
- Floating-point arithmetic and `toFixed(2)` on the valuation: numbers are exact reals.
- JavaScript `Date` parsing and formatting, and the dashboard's 30-day default range: dates are integer timestamps, and an invalid date string is not modelled. On the transactions page the two date inputs are the instants they parse to, midnight UTC for a 'yyyy-mm-dd' value. The range therefore ends at the start of the end day, as AfterEndInstantExcluded states.
- TransactionsPage.ApplyFilters: a row's product-name cell is always a string. With a search set, `t[2].toLowerCase()` throws on a row without a product name, and the model does not represent that outcome.
- `toLowerCase` outside ASCII: only A–Z are mapped.
- SkuSchema.Validate: an explicit null on status, currentStock or addedOn is stored as null, because Mongoose applies a default only to an undefined path and the enum skips null. The model reads None as undefined, so it promises the defaults for both.
- TransactionSchema.Validate: an explicit `timestamp: null` is stored as null. The model reads None as undefined and promises the current time.
- SupplierSchema.Validate: an explicit `addedOn: null` is stored as null. The model reads None as undefined and promises the current time.
- WarehouseSchema.Validate: an explicit `addedOn: null` is stored as null. The model reads None as undefined and promises the current time.
- DashboardPage.RefreshActivities: a truthy `recentAddSKUs` that is not an array is not modelled. A truthy object or number there makes the spread throw, and the catch leaves the activities unchanged. A truthy string spreads into its characters. None stands for a missing or falsy property only.
- `getRecentActivities` (Dashboard.tsx:76) and `updateSKUStatus` (SkuMaster.tsx:131) are neither imported nor defined. As written, each call throws a ReferenceError into its catch: the activity list never fills and no status request is sent. The model's `response` parameter stands for what the first call would return, and ToggleStatus for the status the second would send.
- `Object.keys` ordering (integer-like keys first): a chart object is modelled as its entry list in enumeration order.
- DashboardPage.SortNewestFirst: timestamps that parse to NaN are not modelled, so the comparator is always a total order.
- The form submission and modal open/close: `handleSubmit` passes the form unchanged to its caller.
- The status-update request in `handleToggleStatus`: the model is the new status it computes.
- Reports, PDF/Excel export, PIN-code lookup and all JSX rendering are not part of this model.
- SkuVendorMapping.FilterRows: the thrown TypeError is modelled as `None`. `String(sku.sku)` is modelled on string skus only.
- The adjustment options would come from `getUniqueSKUs`/`getUniqueItemNames`, whose response shape is not part of this model. A SKU option is either a truthy value whose `sku` and `itemName` may be missing (as for a non-empty bare string) or `Blank`, the empty string. A null or undefined element, on which `s.itemName` throws, is not modelled.
- Unbound API names. `api` is imported by name from `utils/api` in SkuVendorMapping.tsx:2, Suppliers.tsx:2, Warehouses.tsx:2 and Transactions.tsx:2, but that module exports only separate functions and no `api` object. SkuMaster.tsx:59-62 uses `api` without importing it. AddAdjustmentModal.tsx:3 imports `getUniqueSKUs` and `getUniqueItemNames`, which the module does not define, and it defines no `getSKUsForVendorMapping` or `saveVendorMappings` either. As written, none of these calls returns data: the vendor-mapping load and save never reach their success branch, and the adjustment options stay `[]`, so HandleChange never fills a field. Each such call's result is a parameter of the model and stands for what the call would return: Load's `response`, Save's `saved`, the page lists, and the option lists.
- The supplier page reads `SupplierName`/`City`/`State` while the supplier schema stores `vendorName`/`city`/`state`. Each is modelled over the shape it reads, and no mapping between them is assumed.

## Findings

| source | as written | input that shows it | evidently intended | confidence | as-written member | corrected member |
|---|---|---|---|---|---|---|
| src/components/modals/AddAdjustmentModal.tsx:43-46 | the outer `find` callback ignores its argument, so `sku` becomes the whole first option object whenever some option matches | options [(S1, Apple), (S2, Banana)], itemName 'Banana': sku becomes the Apple option | fill sku with the sku of the option named 'Banana' ('S2'), as the "Find matching SKU" comment says | high, not executed | AdjustmentModal.HandleChange, AdjustmentModal.WrittenAndMatchingDiffer | AdjustmentModal.BlankFirstOptionNeverFills | src/components/modals/AddAdjustmentModal.tsx:43-53 | when the first SKU option is the empty string, choosing an item that a later option names leaves sku unchanged, because the outer find returns a falsy value |
| AdjustmentModal.MatchingHandleChange |

=== FILE: adjustment_modal.dfy ===
/** The stock-adjustment form (src/components/modals/AddAdjustmentModal.tsx): its
    initial state and the change handler that auto-fills the partner field.
    Both `find` calls that pick the filled value use a callback that ignores its
    argument, so the filled value is always the first option, whichever option
    actually matched. */
module AdjustmentModal {
  import opened Values
  import opened Seqs

  /** The five named inputs of the form. */
  datatype Field = ItemName | Sku | Qty | Type | Remarks

  /** One element of the SKU options list: a truthy value whose properties `s.sku` and
      `s.itemName` may each be missing (both are, for a non-empty bare string), or
      Blank, the empty string, which is falsy and has neither property. */
  datatype SkuOption = SkuOption(sku: Option<string>, itemName: Option<string>) | Blank

  /** `s.sku` read from an option. */
  function SkuOf(o: SkuOption): Option<string> {
    if o.SkuOption? then o.sku else None
  }

  /** `s.itemName` read from an option. */
  function ItemNameOf(o: SkuOption): Option<string> {
    if o.SkuOption? then o.itemName else None
  }

  /** What `formData.sku` holds: typed text, or a whole option element stored by the
      item-name auto-fill. */
  datatype SkuValue = Typed(text: string) | Picked(option: SkuOption)

  datatype Form = Form(itemName: string, sku: SkuValue, qty: string, kind: string, remarks: string)

  /** The state the modal starts in: every field ''. */
  function InitialForm(): (f: Form)
    ensures f.itemName == "" && f.sku == Typed("") && f.qty == "" && f.kind == "" && f.remarks == ""
  {
    Form("", Typed(""), "", "", "")
  }

  /** `{ ...prev, [name]: value }`. */
  function SetField(f: Form, field: Field, value: string): Form {
    match field
    case ItemName => f.(itemName := value)
    case Sku => f.(sku := Typed(value))
    case Qty => f.(qty := value)
    case Type => f.(kind := value)
    case Remarks => f.(remarks := value)
  }

  /** The value of a field as text, where a picked option counts as its own value. */
  function Get(f: Form, field: Field): SkuValue {
    match field
    case ItemName => Typed(f.itemName)
    case Sku => f.sku
    case Qty => Typed(f.qty)
    case Type => Typed(f.kind)
    case Remarks => Typed(f.remarks)
  }

  /** The inner `skuOptions.find(s => s.itemName === value)`, made truthy by its sku. */
  function ItemNameHasSku(options: seq<SkuOption>, value: string): bool {
    match Find(options, (o: SkuOption) => ItemNameOf(o) == Some(value))
    case None => false
    case Some(o) => Truthy(SkuOf(o))
  }

  /** The inner `skuOptions.find(s => s.sku === value)`, made truthy by its itemName. */
  function SkuHasItemName(options: seq<SkuOption>, value: string): bool {
    match Find(options, (o: SkuOption) => SkuOf(o) == Some(value))
    case None => false
    case Some(o) => Truthy(ItemNameOf(o))
  }

  /** handleChange. A non-empty itemName sets `sku` to the first SKU option when the
      first option carrying that item name has a sku and the first option is itself
      truthy; a non-empty sku sets `itemName`
      to the first item-name option when the first option carrying that sku has an
      item name and that first item name is itself non-empty. */
  function HandleChange(f: Form, skuOptions: seq<SkuOption>, itemNameOptions: seq<string>,
                        field: Field, value: string): (r: Form)
    ensures Get(r, field) == Typed(value)
    ensures field != ItemName && field != Sku ==> r == SetField(f, field, value)
    ensures value == "" ==> r == SetField(f, field, value)
    ensures field == ItemName && value != "" ==>
              r.itemName == value && r.qty == f.qty && r.kind == f.kind && r.remarks == f.remarks
              && (if ItemNameHasSku(skuOptions, value) && |skuOptions| > 0 && skuOptions[0] != Blank
                  then r.sku == Picked(skuOptions[0]) else r.sku == f.sku)
    ensures field == Sku && value != "" ==>
              r.sku == Typed(value) && r.qty == f.qty && r.kind == f.kind && r.remarks == f.remarks
              && (if SkuHasItemName(skuOptions, value) && |itemNameOptions| > 0 && itemNameOptions[0] != ""
                  then r.itemName == itemNameOptions[0] else r.itemName == f.itemName)
  {
    if field == ItemName && value != "" then
      var c := ItemNameHasSku(skuOptions, value);
      FindConstant(skuOptions, c);
      match Find(skuOptions, _ => c)
      case Some(matching) =>
        if matching != Blank then f.(itemName := value, sku := Picked(matching)) else f.(itemName := value)
      case None => f.(itemName := value)
    else if field == Sku && value != "" then
      var c := SkuHasItemName(skuOptions, value);
      FindConstant(itemNameOptions, c);
      var matching := Find(itemNameOptions, _ => c);
      if Truthy(matching) then f.(sku := Typed(value), itemName := matching.value)
      else f.(sku := Typed(value))
    else
      SetField(f, field, value)
  }

  /** The item-name test holds exactly when the first option carrying that item name
      has a non-empty sku; later options with the same name are never looked at. */
  lemma ItemNameHasSkuFirst(options: seq<SkuOption>, value: string)
    ensures ItemNameHasSku(options, value) <==>
              exists i :: 0 <= i < |options| && ItemNameOf(options[i]) == Some(value) && Truthy(SkuOf(options[i]))
                          && forall j :: 0 <= j < i ==> ItemNameOf(options[j]) != Some(value)
  {
  }

  /** The sku test holds exactly when the first option carrying that sku has a
      non-empty item name. */
  lemma SkuHasItemNameFirst(options: seq<SkuOption>, value: string)
    ensures SkuHasItemName(options, value) <==>
              exists i :: 0 <= i < |options| && SkuOf(options[i]) == Some(value) && Truthy(ItemNameOf(options[i]))
                          && forall j :: 0 <= j < i ==> SkuOf(options[j]) != Some(value)
  {
  }

  /** Choosing the second of two items fills `sku` with the first option, which
      belongs to the other item. */
  lemma FilledSkuIsFirstOption()
    ensures var options := [SkuOption(Some("S1"), Some("Apple")), SkuOption(Some("S2"), Some("Banana"))];
            var r := HandleChange(InitialForm(), options, ["Apple", "Banana"], ItemName, "Banana");
            r.sku == Picked(options[0]) && ItemNameOf(r.sku.option) != Some("Banana")
  {
    var options := [SkuOption(Some("S1"), Some("Apple")), SkuOption(Some("S2"), Some("Banana"))];
    ItemNameHasSkuFirst(options, "Banana");
    assert ItemNameOf(options[1]) == Some("Banana") && Truthy(SkuOf(options[1]));
    assert ItemNameOf(options[0]) != Some("Banana");
  }

  /** Typing the second sku fills `itemName` with the first item-name option. */
  lemma FilledItemNameIsFirstOption()
    ensures var options := [SkuOption(Some("S1"), Some("Apple")), SkuOption(Some("S2"), Some("Banana"))];
            HandleChange(InitialForm(), options, ["Apple", "Banana"], Sku, "S2").itemName == "Apple"
  {
    var options := [SkuOption(Some("S1"), Some("Apple")), SkuOption(Some("S2"), Some("Banana"))];
    SkuHasItemNameFirst(options, "S2");
    assert SkuOf(options[1]) == Some("S2") && Truthy(ItemNameOf(options[1]));
    assert SkuOf(options[0]) != Some("S2");
  }

  /** Options that are bare values with no sku or itemName property never trigger a fill. */
  lemma BareOptionsNeverFill(f: Form, n: nat, itemNameOptions: seq<string>, field: Field, value: string)
    requires field == ItemName || field == Sku
    ensures var r := HandleChange(f, seq(n, _ => SkuOption(None, None)), itemNameOptions, field, value);
            r == SetField(f, field, value)
  {
    var options := seq(n, _ => SkuOption(None, None));
    ItemNameHasSkuFirst(options, value);
    SkuHasItemNameFirst(options, value);
  }

  /** An empty-string first option is falsy, so even when a later option carries the
      chosen item name and a sku, `sku` is left as it was. */
  lemma BlankFirstOptionNeverFills()
    ensures var options := [Blank, SkuOption(Some("S2"), Some("Banana"))];
            var r := HandleChange(InitialForm(), options, [], ItemName, "Banana");
            ItemNameHasSku(options, "Banana") && r.sku == Typed("") && r.itemName == "Banana"
  {
    var options := [Blank, SkuOption(Some("S2"), Some("Banana"))];
    ItemNameHasSkuFirst(options, "Banana");
    assert ItemNameOf(options[1]) == Some("Banana") && Truthy(SkuOf(options[1]));
  }

  /** The handler as its comments describe it ("find matching SKU", "find matching
      item name"): the partner field is filled from the option that matched. */
  function MatchingHandleChange(f: Form, skuOptions: seq<SkuOption>, field: Field, value: string): (r: Form)
    ensures field != ItemName && field != Sku ==> r == SetField(f, field, value)
    ensures value == "" ==> r == SetField(f, field, value)
    ensures field == ItemName && value != "" ==>
              r.itemName == value && r.qty == f.qty && r.kind == f.kind && r.remarks == f.remarks
              && (ItemNameHasSku(skuOptions, value) ==>
                    exists i :: 0 <= i < |skuOptions| && ItemNameOf(skuOptions[i]) == Some(value)
                                && Truthy(SkuOf(skuOptions[i])) && r.sku == Typed(SkuOf(skuOptions[i]).value))
              && (!ItemNameHasSku(skuOptions, value) ==> r.sku == f.sku)
    ensures field == Sku && value != "" ==>
              r.sku == Typed(value) && r.qty == f.qty && r.kind == f.kind && r.remarks == f.remarks
              && (SkuHasItemName(skuOptions, value) ==>
                    exists i :: 0 <= i < |skuOptions| && SkuOf(skuOptions[i]) == Some(value)
                                && Truthy(ItemNameOf(skuOptions[i])) && r.itemName == ItemNameOf(skuOptions[i]).value)
              && (!SkuHasItemName(skuOptions, value) ==> r.itemName == f.itemName)
  {
    if field == ItemName && value != "" then
      match Find(skuOptions, (o: SkuOption) => ItemNameOf(o) == Some(value))
      case Some(o) => if Truthy(SkuOf(o)) then f.(itemName := value, sku := Typed(SkuOf(o).value)) else f.(itemName := value)
      case None => f.(itemName := value)
    else if field == Sku && value != "" then
      match Find(skuOptions, (o: SkuOption) => SkuOf(o) == Some(value))
      case Some(o) => if Truthy(ItemNameOf(o)) then f.(sku := Typed(value), itemName := ItemNameOf(o).value) else f.(sku := Typed(value))
      case None => f.(sku := Typed(value))
    else
      SetField(f, field, value)
  }

  /** On the two-option list the handler as written fills `sku` with the first
      option while the matching handler fills it with the sku of the option named. */
  lemma WrittenAndMatchingDiffer()
    ensures var options := [SkuOption(Some("S1"), Some("Apple")), SkuOption(Some("S2"), Some("Banana"))];
            HandleChange(InitialForm(), options, ["Apple", "Banana"], ItemName, "Banana").sku == Picked(options[0])
            && MatchingHandleChange(InitialForm(), options, ItemName, "Banana").sku == Typed("S2")
  {
    FilledSkuIsFirstOption();
    var options := [SkuOption(Some("S1"), Some("Apple")), SkuOption(Some("S2"), Some("Banana"))];
    assert ItemNameOf(options[0]) != Some("Banana") && ItemNameOf(options[1]) == Some("Banana");
  }
}

=== FILE: dashboard_data.dfy ===
/** The pure part of getDashboardData (src/utils/api.ts): the inventory valuation
    fold and the low-stock and over-stock tables over the stored SKUs. */
module DashboardData {
  import opened Seqs
  import opened SkuSchema

  /** One row of the low-stock table [itemName, sku, minLvl, currentStock] or of the
      over-stock table [itemName, sku, maxLvl, currentStock]. */
  datatype AlertRow = AlertRow(itemName: string, sku: string, level: real, currentStock: real)

  /** The value one SKU contributes: currentStock times price. */
  function LineValue(s: Sku): real {
    s.currentStock * s.price
  }

  /** Reference definition of the valuation: the sum of LineValue over all SKUs. */
  function TotalValue(skus: seq<Sku>): real
    decreases |skus|
  {
    if |skus| == 0 then 0.0 else LineValue(skus[0]) + TotalValue(skus[1..])
  }

  /** `skus.reduce((total, sku) => total + sku.currentStock * sku.price, acc)`,
      folding from the left as Array.prototype.reduce does. */
  function Reduce(skus: seq<Sku>, acc: real): real
    decreases |skus|
  {
    if |skus| == 0 then acc else Reduce(skus[1..], acc + LineValue(skus[0]))
  }

  /** The left fold started at `acc` adds the total value to `acc`. */
  lemma {:induction false} ReduceIsTotal(skus: seq<Sku>, acc: real)
    ensures Reduce(skus, acc) == acc + TotalValue(skus)
    decreases |skus|
  {
    if |skus| > 0 {
      ReduceIsTotal(skus[1..], acc + LineValue(skus[0]));
    }
  }

  /** The inventory valuation as computed before formatting. */
  function Valuation(skus: seq<Sku>): (v: real)
    ensures v == TotalValue(skus)
    ensures |skus| == 0 ==> v == 0.0
  {
    ReduceIsTotal(skus, 0.0);
    Reduce(skus, 0.0)
  }

  /** The valuation of a concatenation is the sum of the valuations. */
  lemma {:induction false} TotalValueAppend(a: seq<Sku>, b: seq<Sku>)
    ensures TotalValue(a + b) == TotalValue(a) + TotalValue(b)
    decreases |a|
  {
    if |a| > 0 {
      assert (a + b)[1..] == a[1..] + b;
      TotalValueAppend(a[1..], b);
    } else {
      assert a + b == b;
    }
  }

  /** No status filter is applied: switching any SKU's status leaves the valuation
      unchanged, so Inactive SKUs count as much as Active ones. */
  lemma {:induction false} ValuationIgnoresStatus(skus: seq<Sku>, statuses: seq<string>)
    requires |statuses| == |skus|
    ensures Valuation(seq(|skus|, i requires 0 <= i < |skus| => skus[i].(status := statuses[i]))) == Valuation(skus)
    decreases |skus|
  {
    var t := seq(|skus|, i requires 0 <= i < |skus| => skus[i].(status := statuses[i]));
    if |skus| > 0 {
      ValuationIgnoresStatus(skus[1..], statuses[1..]);
      assert t[1..] == seq(|skus| - 1, i requires 0 <= i < |skus| - 1 => skus[1..][i].(status := statuses[1..][i]));
    }
  }

  /** When every SKU has non-negative stock and price the valuation is non-negative;
      the schema bounds price but not currentStock. */
  lemma {:induction false} ValuationNonNegative(skus: seq<Sku>)
    requires forall i :: 0 <= i < |skus| ==> skus[i].currentStock >= 0.0 && skus[i].price >= 0.0
    ensures Valuation(skus) >= 0.0
    decreases |skus|
  {
    if |skus| > 0 {
      ValuationNonNegative(skus[1..]);
      assert LineValue(skus[0]) >= 0.0;
    }
  }

  predicate IsLow(s: Sku) {
    s.currentStock < s.minLvl
  }

  predicate IsOver(s: Sku) {
    s.currentStock > s.maxLvl
  }

  function LowRow(s: Sku): AlertRow {
    AlertRow(s.itemName, s.sku, s.minLvl, s.currentStock)
  }

  function OverRow(s: Sku): AlertRow {
    AlertRow(s.itemName, s.sku, s.maxLvl, s.currentStock)
  }

  /** `skus.filter(sku => sku.currentStock < sku.minLvl).map(...)`. */
  function LowStock(skus: seq<Sku>): (rows: seq<AlertRow>)
    ensures |rows| == Count(skus, IsLow)
    ensures forall i :: 0 <= i < |rows| ==> rows[i].currentStock < rows[i].level
  {
    KeepLength(skus, IsLow);
    MapSeq(Keep(skus, IsLow), LowRow)
  }

  /** `skus.filter(sku => sku.currentStock > sku.maxLvl).map(...)`. */
  function OverStock(skus: seq<Sku>): (rows: seq<AlertRow>)
    ensures |rows| == Count(skus, IsOver)
    ensures forall i :: 0 <= i < |rows| ==> rows[i].currentStock > rows[i].level
  {
    KeepLength(skus, IsOver);
    MapSeq(Keep(skus, IsOver), OverRow)
  }

  /** The low-stock table lists exactly the SKUs below their minimum level, in input
      order: it is the row image of the only subsequence of `skus` that holds every
      such SKU and nothing else. */
  lemma LowStockExact(skus: seq<Sku>, picked: seq<Sku>)
    requires IsSubsequence(picked, skus)
    requires forall i :: 0 <= i < |picked| ==> picked[i].currentStock < picked[i].minLvl
    requires |picked| == Count(skus, IsLow)
    ensures LowStock(skus) == MapSeq(picked, LowRow)
  {
    KeepUnique(picked, skus, IsLow);
  }

  /** The over-stock table lists exactly the SKUs above their maximum level, in input order. */
  lemma OverStockExact(skus: seq<Sku>, picked: seq<Sku>)
    requires IsSubsequence(picked, skus)
    requires forall i :: 0 <= i < |picked| ==> picked[i].currentStock > picked[i].maxLvl
    requires |picked| == Count(skus, IsOver)
    ensures OverStock(skus) == MapSeq(picked, OverRow)
  {
    KeepUnique(picked, skus, IsOver);
  }

  /** A SKU appears in the low-stock table iff its stock is strictly below its minimum;
      stock equal to the minimum is not low. */
  lemma LowStockMembership(skus: seq<Sku>, s: Sku)
    ensures s in Keep(skus, IsLow) <==> s in skus && s.currentStock < s.minLvl
    ensures s.currentStock == s.minLvl ==> s !in Keep(skus, IsLow)
    ensures s in skus && s.currentStock < s.minLvl ==> LowRow(s) in LowStock(skus)
    ensures forall r :: r in LowStock(skus) ==> exists t :: t in skus && IsLow(t) && r == LowRow(t)
  {
    KeepMembership(skus, IsLow, s);
    var kept := Keep(skus, IsLow);
    if s in kept {
      var i :| 0 <= i < |kept| && kept[i] == s;
      assert LowStock(skus)[i] == LowRow(s);
    }
    forall r | r in LowStock(skus)
      ensures exists t :: t in skus && IsLow(t) && r == LowRow(t)
    {
      var i :| 0 <= i < |kept| && LowStock(skus)[i] == r;
      KeepMembership(skus, IsLow, kept[i]);
    }
  }

  /** A SKU appears in the over-stock table iff its stock is strictly above its maximum;
      stock equal to the maximum is not over. */
  lemma OverStockMembership(skus: seq<Sku>, s: Sku)
    ensures s in Keep(skus, IsOver) <==> s in skus && s.currentStock > s.maxLvl
    ensures s.currentStock == s.maxLvl ==> s !in Keep(skus, IsOver)
    ensures s in skus && s.currentStock > s.maxLvl ==> OverRow(s) in OverStock(skus)
    ensures forall r :: r in OverStock(skus) ==> exists t :: t in skus && IsOver(t) && r == OverRow(t)
  {
    KeepMembership(skus, IsOver, s);
    var kept := Keep(skus, IsOver);
    if s in kept {
      var i :| 0 <= i < |kept| && kept[i] == s;
      assert OverStock(skus)[i] == OverRow(s);
    }
    forall r | r in OverStock(skus)
      ensures exists t :: t in skus && IsOver(t) && r == OverRow(t)
    {
      var i :| 0 <= i < |kept| && OverStock(skus)[i] == r;
      KeepMembership(skus, IsOver, kept[i]);
    }
  }

  /** When every SKU's minimum level is at most its maximum level, no SKU is in both
      tables. */
  lemma LowAndOverDisjoint(skus: seq<Sku>)
    requires forall i :: 0 <= i < |skus| ==> skus[i].minLvl <= skus[i].maxLvl
    ensures forall s :: s in Keep(skus, IsLow) ==> s !in Keep(skus, IsOver)
  {
    forall s | s in Keep(skus, IsLow)
      ensures s !in Keep(skus, IsOver)
    {
      KeepMembership(skus, IsLow, s);
      KeepMembership(skus, IsOver, s);
    }
  }

  /** The three derived figures of the dashboard. */
  datatype Summary = Summary(inventoryValuation: real, lowStock: seq<AlertRow>, overStock: seq<AlertRow>)

  /** The dashboard figures computed from a snapshot of the SKU collection. */
  function Summarize(skus: seq<Sku>): (r: Summary)
    ensures r.inventoryValuation == TotalValue(skus)
    ensures |r.lowStock| == Count(skus, IsLow) && |r.overStock| == Count(skus, IsOver)
    ensures r.lowStock == LowStock(skus) && r.overStock == OverStock(skus)
  {
    Summary(Valuation(skus), LowStock(skus), OverStock(skus))
  }
}

=== FILE: dashboard_page.dfy ===
/** The dashboard page (src/pages/Dashboard.tsx): the recent-activity merge that
    concatenates recent transactions and recently added SKUs and orders them newest
    first, and the label/data pairs fed to the charts. */
module DashboardPage {
  import opened Values
  import opened Seqs

  /** One recent activity; only its timestamp takes part in the ordering. */
  datatype Activity = Activity(timestamp: int, details: string)

  /** Non-increasing by timestamp: newest first. */
  predicate NewestFirst(s: seq<Activity>) {
    forall i, j :: 0 <= i < j < |s| ==> s[i].timestamp >= s[j].timestamp
  }

  /** Places `x` before the first element not newer than it, so among equal
      timestamps `x` stays ahead of the elements already placed after it. */
  function InsertNewestFirst(x: Activity, l: seq<Activity>): (r: seq<Activity>)
    ensures |r| == |l| + 1
    ensures multiset(r) == multiset(l) + multiset{x}
    decreases |l|
  {
    if |l| == 0 then [x]
    else if l[0].timestamp <= x.timestamp then [x] + l
    else
      assert l == [l[0]] + l[1..];
      [l[0]] + InsertNewestFirst(x, l[1..])
  }

  /** `.sort((a, b) => b.timestamp - a.timestamp)`; the sort is stable, as
      Array.prototype.sort is required to be since ECMAScript 2019. */
  function SortNewestFirst(s: seq<Activity>): (r: seq<Activity>)
    ensures |r| == |s|
    ensures multiset(r) == multiset(s)
    decreases |s|
  {
    if |s| == 0 then []
    else
      assert s == [s[0]] + s[1..];
      InsertNewestFirst(s[0], SortNewestFirst(s[1..]))
  }

  lemma {:induction false} InsertKeepsOrder(x: Activity, l: seq<Activity>)
    requires NewestFirst(l)
    ensures NewestFirst(InsertNewestFirst(x, l))
    decreases |l|
  {
    if |l| > 0 && l[0].timestamp > x.timestamp {
      var rest := InsertNewestFirst(x, l[1..]);
      InsertKeepsOrder(x, l[1..]);
      forall k | 0 <= k < |rest| ensures rest[k].timestamp <= l[0].timestamp {
        assert rest[k] in multiset(rest);
        assert rest[k] in multiset(l[1..]) || rest[k] == x;
        if rest[k] != x {
          var m :| 0 <= m < |l[1..]| && l[1..][m] == rest[k];
          assert l[m + 1] == rest[k];
        }
      }
    }
  }

  /** The merged list is ordered newest first. */
  lemma {:induction false} SortIsNewestFirst(s: seq<Activity>)
    ensures NewestFirst(SortNewestFirst(s))
    decreases |s|
  {
    if |s| > 0 {
      SortIsNewestFirst(s[1..]);
      InsertKeepsOrder(s[0], SortNewestFirst(s[1..]));
    }
  }

  /** The activities carrying one timestamp. */
  function AtTime(t: int): Activity -> bool {
    (a: Activity) => a.timestamp == t
  }

  lemma {:induction false} InsertKeepsTies(x: Activity, l: seq<Activity>, t: int)
    ensures Keep(InsertNewestFirst(x, l), AtTime(t)) == Keep([x], AtTime(t)) + Keep(l, AtTime(t))
    decreases |l|
  {
    if |l| == 0 {
    } else if l[0].timestamp <= x.timestamp {
      KeepAppend([x], l, AtTime(t));
    } else {
      InsertKeepsTies(x, l[1..], t);
      KeepAppend([l[0]], InsertNewestFirst(x, l[1..]), AtTime(t));
      KeepAppend([l[0]], l[1..], AtTime(t));
      assert [l[0]] + l[1..] == l;
      if x.timestamp == t {
        assert Keep([l[0]], AtTime(t)) == [];
      }
    }
  }

  /** Stability: activities with equal timestamps keep their relative order. */
  lemma {:induction false} SortIsStable(s: seq<Activity>, t: int)
    ensures Keep(SortNewestFirst(s), AtTime(t)) == Keep(s, AtTime(t))
    decreases |s|
  {
    if |s| > 0 {
      SortIsStable(s[1..], t);
      InsertKeepsTies(s[0], SortNewestFirst(s[1..]), t);
      KeepAppend([s[0]], s[1..], AtTime(t));
      assert [s[0]] + s[1..] == s;
    }
  }

  /** The activities response; None when a list property is missing or falsy. */
  datatype RecentResponse = RecentResponse(recentTransactions: Option<seq<Activity>>,
                                           recentAddSKUs: Option<seq<Activity>>)

  /** `x || []` for a list property. */
  function OrNone(o: Option<seq<Activity>>): (r: seq<Activity>)
    ensures o.Some? ==> r == o.value
    ensures o.None? ==> r == []
  {
    if o.Some? then o.value else []
  }

  /** fetchRecentActivities: the activities shown after a fetch whose result is
      `response` (None for a null or failed response). */
  function RefreshActivities(current: seq<Activity>, response: Option<RecentResponse>): (r: seq<Activity>)
    ensures response.None? || response.value.recentTransactions.None? ==> r == current
    ensures response.Some? && response.value.recentTransactions.Some? ==>
              var merged := response.value.recentTransactions.value + OrNone(response.value.recentAddSKUs);
              |r| == |merged| && multiset(r) == multiset(merged)
  {
    if response.Some? && response.value.recentTransactions.Some? then
      SortNewestFirst(response.value.recentTransactions.value + OrNone(response.value.recentAddSKUs))
    else current
  }

  /** A refresh with a transactions list shows every transaction and every added
      SKU, newest first, ties in the order received. */
  lemma RefreshMerges(current: seq<Activity>, txs: seq<Activity>, added: Option<seq<Activity>>, t: int)
    ensures var r := RefreshActivities(current, Some(RecentResponse(Some(txs), added)));
            NewestFirst(r) && |r| == |txs| + |OrNone(added)|
            && Keep(r, AtTime(t)) == Keep(txs, AtTime(t)) + Keep(OrNone(added), AtTime(t))
  {
    SortIsNewestFirst(txs + OrNone(added));
    SortIsStable(txs + OrNone(added), t);
    KeepAppend(txs, OrNone(added), AtTime(t));
  }

  /** A chart's input pairs its labels with its values by index. */
  datatype Chart = Chart(labels: seq<string>, data: seq<real>)

  /** Labels and data taken from the same entries, in the same order. */
  function Split(entries: seq<(string, real)>): (c: Chart)
    ensures |c.labels| == |c.data| == |entries|
    ensures forall i :: 0 <= i < |entries| ==> (c.labels[i], c.data[i]) == entries[i]
  {
    Chart(MapSeq(entries, (e: (string, real)) => e.0), MapSeq(entries, (e: (string, real)) => e.1))
  }

  /** Pairs labels and data back up, index by index. */
  function Zip(labels: seq<string>, data: seq<real>): (entries: seq<(string, real)>)
    requires |labels| == |data|
    ensures |entries| == |labels|
    ensures forall i :: 0 <= i < |labels| ==> entries[i].0 == labels[i] && entries[i].1 == data[i]
  {
    seq(|labels|, i requires 0 <= i < |labels| => (labels[i], data[i]))
  }

  /** Splitting and zipping again gives back the entries. */
  lemma SplitZip(entries: seq<(string, real)>)
    ensures var c := Split(entries); Zip(c.labels, c.data) == entries
  {
    var c := Split(entries);
    var z := Zip(c.labels, c.data);
    assert forall i :: 0 <= i < |entries| ==> z[i] == (c.labels[i], c.data[i]) == entries[i];
  }

  /** transactionsByTypeData and inventoryByWarehouseData: Object.keys and
      Object.values of one object, `{}` when the object is missing. The entries are
      the object's own properties in enumeration order. */
  function ObjectChart(obj: Option<seq<(string, real)>>): (c: Chart)
    ensures obj.None? ==> c.labels == [] && c.data == []
    ensures obj.Some? ==> c == Split(obj.value)
  {
    if obj.Some? then Split(obj.value) else Chart([], [])
  }

  /** One point of the inventory-growth series. */
  datatype GrowthPoint = GrowthPoint(month: string, value: real)

  /** growthChartData: months as labels and values as data, `[]` when missing. */
  function GrowthChart(points: Option<seq<GrowthPoint>>): (c: Chart)
    ensures points.None? ==> c.labels == [] && c.data == []
    ensures points.Some? ==> |c.labels| == |c.data| == |points.value|
    ensures points.Some? ==> forall i :: 0 <= i < |points.value| ==>
              GrowthPoint(c.labels[i], c.data[i]) == points.value[i]
  {
    if points.None? then Chart([], [])
    else Chart(MapSeq(points.value, (p: GrowthPoint) => p.month), MapSeq(points.value, (p: GrowthPoint) => p.value))
  }
}

=== FILE: schema.dfy ===
/** What the Mongoose schema options used by the four models do to one path:
    `trim` and `lowercase` setters run first, then `required`, `min` and `enum`
    validators; every failing path contributes one error, and the document is
    saved only when there are none. */
module Schema {
  import opened Values
  import opened Text

  /** One validation or index failure, tagged with the schema path it concerns. */
  datatype SchemaError =
    | Required(path: string)
    | BelowMin(path: string)
    | NotInEnum(path: string)
    | NotInteger(path: string)
    | Duplicate(path: string)

  /** The outcome of validating (and possibly inserting) a document. */
  datatype Result<+T> = Ok(value: T) | Err(errors: seq<SchemaError>)

  /** A required string path is satisfied when, after trimming, it is non-empty. */
  predicate Present(v: Option<string>) {
    v.Some? && Trim(v.value) != ""
  }

  /** A required `Number` path with `min: 0` is satisfied by a non-negative value. */
  predicate NonNegative(v: Option<real>) {
    v.Some? && v.value >= 0.0
  }

  /** `required: true, trim: true` on a string path. */
  function RequiredText(path: string, v: Option<string>): (errs: seq<SchemaError>)
    ensures |errs| == 0 <==> Present(v)
    ensures |errs| != 0 ==> errs == [Required(path)]
  {
    if Present(v) then [] else [Required(path)]
  }

  /** `required: true, min: 0` on a number path; `min` is not checked on a missing value. */
  function RequiredNonNegative(path: string, v: Option<real>): (errs: seq<SchemaError>)
    ensures |errs| == 0 <==> NonNegative(v)
    ensures |errs| <= 1
    ensures v.None? ==> errs == [Required(path)]
    ensures v.Some? && v.value < 0.0 ==> errs == [BelowMin(path)]
  {
    match v
    case None => [Required(path)]
    case Some(x) => if x < 0.0 then [BelowMin(path)] else []
  }

  /** The stored value of a `trim: true` path that passed `required`. */
  function Stored(v: Option<string>): (r: string)
    ensures IsTrimmed(r)
    ensures Present(v) ==> r != ""
  {
    Trim(OrEmpty(v))
  }

  /** The stored value of an optional `trim: true` path: absent stays absent. */
  function StoredOptional(v: Option<string>): (r: Option<string>)
    ensures r.None? <==> v.None?
    ensures r.Some? ==> IsTrimmed(r.value)
  {
    match v
    case None => None
    case Some(s) => Some(Trim(s))
  }

  /** Storing an already stored value again changes nothing. */
  lemma StoredIdempotent(s: string)
    requires IsTrimmed(s) && s != ""
    ensures Present(Some(s)) && Stored(Some(s)) == s
  {
    TrimOfTrimmed(s);
  }

  lemma StoredOptionalIdempotent(v: Option<string>)
    requires v.Some? ==> IsTrimmed(v.value)
    ensures StoredOptional(v) == v
  {
    if v.Some? {
      TrimOfTrimmed(v.value);
    }
  }
}

=== FILE: seqs.dfy ===
/** Array.prototype.filter, find and map over sequences, with the facts the page
    filters and the dashboard rely on: order-preserving subsequence, exact
    membership, conjunction of successive filters and idempotence. */
module Seqs {
  import opened Values

  /** `s.filter(p)`: the elements of `s` satisfying `p`, in their original order. */
  function Keep<T>(s: seq<T>, p: T -> bool): (r: seq<T>)
    ensures |r| <= |s|
    ensures forall i :: 0 <= i < |r| ==> p(r[i])
    decreases |s|
  {
    if |s| == 0 then [] else (if p(s[0]) then [s[0]] else []) + Keep(s[1..], p)
  }

  /** The number of elements of `s` satisfying `p`. */
  function Count<T>(s: seq<T>, p: T -> bool): nat
    decreases |s|
  {
    if |s| == 0 then 0 else (if p(s[0]) then 1 else 0) + Count(s[1..], p)
  }

  /** `a` is obtained from `b` by deleting elements, keeping the order of the rest. */
  predicate IsSubsequence<T(==)>(a: seq<T>, b: seq<T>)
    decreases |b|
  {
    if |a| == 0 then true
    else if |b| == 0 then false
    else (a[0] == b[0] && IsSubsequence(a[1..], b[1..])) || IsSubsequence(a, b[1..])
  }

  /** Membership in a filter result is exactly membership in the input plus the predicate. */
  lemma {:induction false} KeepMembership<T>(s: seq<T>, p: T -> bool, x: T)
    ensures x in Keep(s, p) <==> x in s && p(x)
    decreases |s|
  {
    if |s| > 0 {
      KeepMembership(s[1..], p, x);
      assert s == [s[0]] + s[1..];
    }
  }

  /** A filter result is an order-preserving subsequence of its input. */
  lemma {:induction false} KeepIsSubsequence<T>(s: seq<T>, p: T -> bool)
    ensures IsSubsequence(Keep(s, p), s)
    decreases |s|
  {
    if |s| > 0 {
      var r := Keep(s, p);
      KeepIsSubsequence(s[1..], p);
      if p(s[0]) {
        assert r[0] == s[0] && r[1..] == Keep(s[1..], p);
      } else {
        assert r == Keep(s[1..], p);
        if |r| > 0 {
          assert IsSubsequence(r, s[1..]);
        }
      }
    }
  }

  /** A filter keeps exactly as many elements as satisfy its predicate. */
  lemma {:induction false} KeepLength<T>(s: seq<T>, p: T -> bool)
    ensures |Keep(s, p)| == Count(s, p)
    decreases |s|
  {
    if |s| > 0 {
      KeepLength(s[1..], p);
    }
  }

  /** Being a subsequence is transitive. */
  lemma {:induction false} SubsequenceTransitive<T>(a: seq<T>, b: seq<T>, c: seq<T>)
    requires IsSubsequence(a, b) && IsSubsequence(b, c)
    ensures IsSubsequence(a, c)
    decreases |c|
  {
    if |a| > 0 && |c| > 0 {
      if b[0] == c[0] && IsSubsequence(b[1..], c[1..]) {
        if a[0] == b[0] && IsSubsequence(a[1..], b[1..]) {
          SubsequenceTransitive(a[1..], b[1..], c[1..]);
        } else {
          SubsequenceTransitive(a, b[1..], c[1..]);
        }
      } else {
        SubsequenceTransitive(a, b, c[1..]);
      }
    }
  }

  /** Every sequence is a subsequence of itself. */
  lemma {:induction false} SubsequenceReflexive<T>(s: seq<T>)
    ensures IsSubsequence(s, s)
    decreases |s|
  {
    if |s| > 0 {
      SubsequenceReflexive(s[1..]);
    }
  }

  /** A subsequence all of whose elements satisfy `p` has at most Count(s, p) elements. */
  lemma {:induction false} SubsequenceCountBound<T>(r: seq<T>, s: seq<T>, p: T -> bool)
    requires IsSubsequence(r, s)
    requires forall i :: 0 <= i < |r| ==> p(r[i])
    ensures |r| <= Count(s, p)
    decreases |s|
  {
    if |r| > 0 {
      if r[0] == s[0] && IsSubsequence(r[1..], s[1..]) {
        SubsequenceCountBound(r[1..], s[1..], p);
      } else {
        SubsequenceCountBound(r, s[1..], p);
      }
    }
  }

  /** Reference characterisation of a filter: the only subsequence of `s` whose
      elements all satisfy `p` and that has Count(s, p) elements is Keep(s, p). */
  lemma {:induction false} KeepUnique<T>(r: seq<T>, s: seq<T>, p: T -> bool)
    requires IsSubsequence(r, s)
    requires forall i :: 0 <= i < |r| ==> p(r[i])
    requires |r| == Count(s, p)
    ensures r == Keep(s, p)
    decreases |s|
  {
    if |s| > 0 {
      if p(s[0]) {
        if r[0] == s[0] && IsSubsequence(r[1..], s[1..]) {
          KeepUnique(r[1..], s[1..], p);
          assert r == [r[0]] + r[1..];
        } else {
          SubsequenceCountBound(r, s[1..], p);
          assert false;
        }
      } else {
        if |r| > 0 {
          assert p(r[0]) && r[0] != s[0];
        } else {
          assert IsSubsequence(r, s[1..]);
        }
        KeepUnique(r, s[1..], p);
      }
    }
  }

  /** Two predicates that agree everywhere filter alike. */
  lemma {:induction false} KeepExtensional<T>(s: seq<T>, p: T -> bool, q: T -> bool)
    requires forall x :: p(x) == q(x)
    ensures Keep(s, p) == Keep(s, q)
    decreases |s|
  {
    if |s| > 0 {
      KeepExtensional(s[1..], p, q);
    }
  }

  /** Filtering by `p` and then by `q` is filtering once by their conjunction. */
  lemma {:induction false} KeepKeep<T>(s: seq<T>, p: T -> bool, q: T -> bool)
    ensures Keep(Keep(s, p), q) == Keep(s, x => p(x) && q(x))
    decreases |s|
  {
    if |s| > 0 {
      KeepKeep(s[1..], p, q);
      KeepAppend((if p(s[0]) then [s[0]] else []), Keep(s[1..], p), q);
    }
  }

  /** Filtering distributes over concatenation. */
  lemma {:induction false} KeepAppend<T>(a: seq<T>, b: seq<T>, p: T -> bool)
    ensures Keep(a + b, p) == Keep(a, p) + Keep(b, p)
    decreases |a|
  {
    if |a| > 0 {
      KeepAppend(a[1..], b, p);
      assert (a + b)[1..] == a[1..] + b;
    } else {
      assert a + b == b;
    }
  }

  /** A predicate every element satisfies filters nothing out. */
  lemma {:induction false} KeepAll<T>(s: seq<T>, p: T -> bool)
    requires forall i :: 0 <= i < |s| ==> p(s[i])
    ensures Keep(s, p) == s
    decreases |s|
  {
    if |s| > 0 {
      KeepAll(s[1..], p);
      assert s == [s[0]] + s[1..];
    }
  }

  /** Filtering twice with the same predicate is filtering once. */
  lemma KeepIdempotent<T>(s: seq<T>, p: T -> bool)
    ensures Keep(Keep(s, p), p) == Keep(s, p)
  {
    KeepAll(Keep(s, p), p);
  }

  /** One conditional step of a page filter: `if (input) filtered = filtered.filter(p)`. */
  function FilterIf<T>(active: bool, s: seq<T>, p: T -> bool): (r: seq<T>)
    ensures !active ==> r == s
    ensures active ==> r == Keep(s, p)
  {
    if active then Keep(s, p) else s
  }

  /** A conditional step is a filter by "inactive or satisfies p". */
  lemma FilterIfIsKeep<T>(active: bool, s: seq<T>, p: T -> bool)
    ensures FilterIf(active, s, p) == Keep(s, x => !active || p(x))
  {
    if active {
      KeepExtensional(s, p, x => !active || p(x));
    } else {
      KeepAll(s, x => !active || p(x));
    }
  }

  /** A conditional step applied to a filter result is a filter by the predicate
      extended with one more conjunct. */
  lemma FilterIfAfterKeep<T>(active: bool, s: seq<T>, q: T -> bool, p: T -> bool, r: T -> bool)
    requires forall x :: r(x) == (q(x) && (!active || p(x)))
    ensures FilterIf(active, Keep(s, q), p) == Keep(s, r)
  {
    FilterIfIsKeep(active, Keep(s, q), p);
    KeepKeep(s, q, x => !active || p(x));
    KeepExtensional(s, x => q(x) && (x => !active || p(x))(x), r);
  }

  /** `s.find(p)`: the first element satisfying `p`, or None when there is none. */
  function Find<T>(s: seq<T>, p: T -> bool): (r: Option<T>)
    ensures r.None? <==> forall i :: 0 <= i < |s| ==> !p(s[i])
    ensures r.Some? ==> exists i :: 0 <= i < |s| && s[i] == r.value && p(s[i])
                                    && forall j :: 0 <= j < i ==> !p(s[j])
    decreases |s|
  {
    if |s| == 0 then None
    else if p(s[0]) then Some(s[0])
    else
      var r := Find(s[1..], p);
      assert r.Some? ==> exists i :: 0 <= i < |s| - 1 && s[1..][i] == r.value && p(s[1..][i])
                                       && forall j :: 0 <= j < i ==> !p(s[1..][j]);
      r
  }

  /** A find whose callback ignores its argument returns the first element exactly
      when the callback's constant answer is true and the sequence is non-empty. */
  lemma FindConstant<T>(s: seq<T>, c: bool)
    ensures Find(s, _ => c) == if c && |s| > 0 then Some(s[0]) else None
  {
  }

  /** `s.map(f)`. */
  function MapSeq<T, U>(s: seq<T>, f: T -> U): (r: seq<U>)
    ensures |r| == |s|
    ensures forall i :: 0 <= i < |s| ==> r[i] == f(s[i])
  {
    seq(|s|, i requires 0 <= i < |s| => f(s[i]))
  }
}

=== FILE: sku_master.dfy ===
/** The SKU master page (src/pages/SkuMaster.tsx): five case-insensitive equality
    filters over the SKU list, the reset button, and the status toggle. */
module SkuMaster {
  import opened Values
  import opened Text
  import opened Seqs
  import SkuSchema

  /** The properties of a listed SKU that the filters read; any may be missing. */
  datatype SkuListing = SkuListing(
    sku: Option<string>,
    warehouse: Option<string>,
    itemName: Option<string>,
    uom: Option<string>,
    status: Option<string>)

  /** The five filter inputs; "" means the filter is off. */
  datatype SkuFilters = SkuFilters(sku: string, warehouse: string, itemName: string, uom: string, status: string)

  /** `field && field.toLowerCase() === input.toLowerCase()`: a missing or empty
      field never matches. */
  predicate FieldMatches(field: Option<string>, input: string) {
    Truthy(field) && SameIgnoringCase(field.value, input)
  }

  /** The callbacks of the five `filter` calls. */
  function BySku(f: SkuFilters): SkuListing -> bool { (s: SkuListing) => FieldMatches(s.sku, f.sku) }
  function ByWarehouse(f: SkuFilters): SkuListing -> bool { (s: SkuListing) => FieldMatches(s.warehouse, f.warehouse) }
  function ByItemName(f: SkuFilters): SkuListing -> bool { (s: SkuListing) => FieldMatches(s.itemName, f.itemName) }
  function ByUom(f: SkuFilters): SkuListing -> bool { (s: SkuListing) => FieldMatches(s.uom, f.uom) }
  function ByStatus(f: SkuFilters): SkuListing -> bool { (s: SkuListing) => FieldMatches(s.status, f.status) }

  /** filterSkus: each non-empty input narrows the list in turn. */
  function FilterSkus(skus: seq<SkuListing>, f: SkuFilters): (r: seq<SkuListing>)
    ensures |r| <= |skus|
  {
    var bySku := FilterIf(f.sku != "", skus, BySku(f));
    var byWarehouse := FilterIf(f.warehouse != "", bySku, ByWarehouse(f));
    var byItem := FilterIf(f.itemName != "", byWarehouse, ByItemName(f));
    var byUom := FilterIf(f.uom != "", byItem, ByUom(f));
    FilterIf(f.status != "", byUom, ByStatus(f))
  }

  /** The conjunction of the active filters, stated record by record. */
  predicate Matches(s: SkuListing, f: SkuFilters) {
    && (f.sku == "" || FieldMatches(s.sku, f.sku))
    && (f.warehouse == "" || FieldMatches(s.warehouse, f.warehouse))
    && (f.itemName == "" || FieldMatches(s.itemName, f.itemName))
    && (f.uom == "" || FieldMatches(s.uom, f.uom))
    && (f.status == "" || FieldMatches(s.status, f.status))
  }

  /** The successive filters amount to one filter by the conjunction of the active ones. */
  lemma FilterSkusIsConjunction(skus: seq<SkuListing>, f: SkuFilters)
    ensures FilterSkus(skus, f) == Keep(skus, s => Matches(s, f))
  {
    var q0 := (s: SkuListing) => true;
    var q1 := (s: SkuListing) => q0(s) && (!(f.sku != "") || BySku(f)(s));
    var q2 := (s: SkuListing) => q1(s) && (!(f.warehouse != "") || ByWarehouse(f)(s));
    var q3 := (s: SkuListing) => q2(s) && (!(f.itemName != "") || ByItemName(f)(s));
    var q4 := (s: SkuListing) => q3(s) && (!(f.uom != "") || ByUom(f)(s));
    var q5 := (s: SkuListing) => Matches(s, f);
    KeepAll(skus, q0);
    FilterIfAfterKeep(f.sku != "", skus, q0, BySku(f), q1);
    FilterIfAfterKeep(f.warehouse != "", skus, q1, ByWarehouse(f), q2);
    FilterIfAfterKeep(f.itemName != "", skus, q2, ByItemName(f), q3);
    FilterIfAfterKeep(f.uom != "", skus, q3, ByUom(f), q4);
    FilterIfAfterKeep(f.status != "", skus, q4, ByStatus(f), q5);
  }

  /** The filtered list is an order-preserving subsequence of the SKU list that holds
      exactly the records matching every active filter. */
  lemma FilterSkusExact(skus: seq<SkuListing>, f: SkuFilters, s: SkuListing)
    ensures IsSubsequence(FilterSkus(skus, f), skus)
    ensures s in FilterSkus(skus, f) <==> s in skus && Matches(s, f)
  {
    FilterSkusIsConjunction(skus, f);
    KeepIsSubsequence(skus, s => Matches(s, f));
    KeepMembership(skus, s => Matches(s, f), s);
  }

  /** A record whose sku (or warehouse, item name, unit, status) is missing or empty
      is dropped whenever that field's filter is non-empty. */
  lemma MissingFieldDropped(skus: seq<SkuListing>, f: SkuFilters, s: SkuListing)
    requires || (f.sku != "" && !Truthy(s.sku))
             || (f.warehouse != "" && !Truthy(s.warehouse))
             || (f.itemName != "" && !Truthy(s.itemName))
             || (f.uom != "" && !Truthy(s.uom))
             || (f.status != "" && !Truthy(s.status))
    ensures s !in FilterSkus(skus, f)
  {
    FilterSkusExact(skus, f, s);
  }

  /** The filters compare case-insensitively: a record whose fields equal the inputs up
      to letter case is kept. */
  lemma CaseInsensitive(skus: seq<SkuListing>, f: SkuFilters, s: SkuListing)
    requires s in skus
    requires Truthy(s.sku) && Truthy(s.warehouse) && Truthy(s.itemName) && Truthy(s.uom) && Truthy(s.status)
    requires ToLower(s.sku.value) == ToLower(f.sku) && ToLower(s.warehouse.value) == ToLower(f.warehouse)
    requires ToLower(s.itemName.value) == ToLower(f.itemName) && ToLower(s.uom.value) == ToLower(f.uom)
    requires ToLower(s.status.value) == ToLower(f.status)
    ensures s in FilterSkus(skus, f)
  {
    FilterSkusExact(skus, f, s);
  }

  /** With every input empty nothing is filtered out. */
  lemma NoFiltersKeepsAll(skus: seq<SkuListing>)
    ensures FilterSkus(skus, SkuFilters("", "", "", "", "")) == skus
  {
  }

  /** Re-filtering the filtered list with the same inputs returns it unchanged. */
  lemma FilterSkusIdempotent(skus: seq<SkuListing>, f: SkuFilters)
    ensures FilterSkus(FilterSkus(skus, f), f) == FilterSkus(skus, f)
  {
    FilterSkusIsConjunction(skus, f);
    FilterSkusIsConjunction(FilterSkus(skus, f), f);
    KeepIdempotent(skus, s => Matches(s, f));
  }

  /** The page's list state: the loaded SKUs, the filter inputs and the table shown. */
  datatype View = View(skus: seq<SkuListing>, filters: SkuFilters, shown: seq<SkuListing>)

  /** resetFilters: every input cleared and the full list shown. */
  function ResetFilters(v: View): (r: View)
    ensures r.skus == v.skus
    ensures r.filters == SkuFilters("", "", "", "", "")
    ensures r.shown == FilterSkus(r.skus, r.filters)
  {
    NoFiltersKeepsAll(v.skus);
    View(v.skus, SkuFilters("", "", "", "", ""), v.skus)
  }

  /** The status sent by handleToggleStatus: 'Active' becomes 'Inactive', anything
      else becomes 'Active'. */
  function ToggleStatus(current: string): (next: string)
    ensures next == SkuSchema.Active || next == SkuSchema.Inactive
    ensures next == SkuSchema.Inactive <==> current == SkuSchema.Active
  {
    if current == SkuSchema.Active then SkuSchema.Inactive else SkuSchema.Active
  }

  /** Toggling twice restores 'Active' and 'Inactive'; any other status (or a missing
      one) comes back as 'Inactive'. */
  lemma ToggleTwice(current: string)
    ensures current == SkuSchema.Active || current == SkuSchema.Inactive ==> ToggleStatus(ToggleStatus(current)) == current
    ensures current != SkuSchema.Active && current != SkuSchema.Inactive ==> ToggleStatus(ToggleStatus(current)) == SkuSchema.Inactive
  {
  }
}

=== FILE: sku_schema.dfy ===
/** The SKU collection's schema (src/models/SKU.ts): required trimmed strings,
    non-negative numbers, a status enum with a default, currentStock defaulting to
    openingStock, and a unique sku index. */
module SkuSchema {
  import opened Values
  import opened Text
  import opened Schema

  const Active: string := "Active"
  const Inactive: string := "Inactive"

  /** The values the status path's `enum` accepts. */
  predicate IsStatus(s: string) {
    s == Active || s == Inactive
  }

  /** A document as submitted for saving; any path may be missing. */
  datatype SkuInput = SkuInput(
    itemName: Option<string>,
    sku: Option<string>,
    uom: Option<string>,
    minLvl: Option<real>,
    maxLvl: Option<real>,
    reorderQty: Option<real>,
    warehouse: Option<string>,
    location: Option<string>,
    openingStock: Option<real>,
    currentStock: Option<real>,
    price: Option<real>,
    status: Option<string>,
    addedOn: Option<int>)

  /** A stored SKU document. */
  datatype Sku = Sku(
    itemName: string,
    sku: string,
    uom: string,
    minLvl: real,
    maxLvl: real,
    reorderQty: real,
    warehouse: string,
    location: string,
    openingStock: real,
    currentStock: real,
    price: real,
    status: string,
    addedOn: int)

  /** Everything the schema's validators demand of a document. Nothing relates
      minLvl to maxLvl, and currentStock has no lower bound. */
  predicate Acceptable(d: SkuInput) {
    && Present(d.itemName) && Present(d.sku) && Present(d.uom)
    && NonNegative(d.minLvl) && NonNegative(d.maxLvl) && NonNegative(d.reorderQty)
    && Present(d.warehouse) && Present(d.location)
    && NonNegative(d.openingStock) && NonNegative(d.price)
    && (d.status.None? || IsStatus(d.status.value))
  }

  /** What every stored SKU satisfies. */
  predicate WellFormed(s: Sku) {
    && s.itemName != "" && IsTrimmed(s.itemName)
    && s.sku != "" && IsTrimmed(s.sku)
    && s.uom != "" && IsTrimmed(s.uom)
    && s.warehouse != "" && IsTrimmed(s.warehouse)
    && s.location != "" && IsTrimmed(s.location)
    && s.minLvl >= 0.0 && s.maxLvl >= 0.0 && s.reorderQty >= 0.0
    && s.openingStock >= 0.0 && s.price >= 0.0
    && IsStatus(s.status)
  }

  /** The validation errors of a document, one per failing path, in schema order. */
  function Errors(d: SkuInput): seq<SchemaError> {
    RequiredText("itemName", d.itemName)
    + RequiredText("sku", d.sku)
    + RequiredText("uom", d.uom)
    + RequiredNonNegative("minLvl", d.minLvl)
    + RequiredNonNegative("maxLvl", d.maxLvl)
    + RequiredNonNegative("reorderQty", d.reorderQty)
    + RequiredText("warehouse", d.warehouse)
    + RequiredText("location", d.location)
    + RequiredNonNegative("openingStock", d.openingStock)
    + RequiredNonNegative("price", d.price)
    + (if d.status.Some? && !IsStatus(d.status.value) then [NotInEnum("status")] else [])
  }

  /** A document has no validation errors exactly when the schema accepts it. */
  lemma ErrorsEmptyIffAcceptable(d: SkuInput)
    ensures |Errors(d)| == 0 <==> Acceptable(d)
  {
  }

  /** The stored document for an acceptable input: setters and defaults applied. */
  function Build(d: SkuInput, now: int): (s: Sku)
    requires Acceptable(d)
    ensures WellFormed(s)
  {
    Sku(
      Stored(d.itemName), Stored(d.sku), Stored(d.uom),
      d.minLvl.value, d.maxLvl.value, d.reorderQty.value,
      Stored(d.warehouse), Stored(d.location),
      d.openingStock.value,
      if d.currentStock.Some? then d.currentStock.value else d.openingStock.value,
      d.price.value,
      if d.status.Some? then d.status.value else Active,
      if d.addedOn.Some? then d.addedOn.value else now)
  }

  /** Validation with the schema's setters and defaults; `now` stands for Date.now. */
  function Validate(d: SkuInput, now: int): (r: Result<Sku>)
    ensures r.Ok? <==> Acceptable(d)
    ensures r.Err? ==> |r.errors| > 0
    ensures r.Ok? ==> WellFormed(r.value)
    ensures r.Ok? ==> r.value.sku == Trim(d.sku.value) && r.value.itemName == Trim(d.itemName.value)
    ensures r.Ok? ==> r.value.uom == Trim(d.uom.value)
    ensures r.Ok? ==> r.value.warehouse == Trim(d.warehouse.value) && r.value.location == Trim(d.location.value)
    ensures r.Ok? ==> r.value.minLvl == d.minLvl.value && r.value.maxLvl == d.maxLvl.value
    ensures r.Ok? ==> r.value.reorderQty == d.reorderQty.value
    ensures r.Ok? ==> r.value.openingStock == d.openingStock.value && r.value.price == d.price.value
    ensures r.Ok? ==> r.value.currentStock == (if d.currentStock.Some? then d.currentStock.value else d.openingStock.value)
    ensures r.Ok? ==> r.value.status == (if d.status.Some? then d.status.value else Active)
    ensures r.Ok? ==> r.value.addedOn == (if d.addedOn.Some? then d.addedOn.value else now)
  {
    var errs := Errors(d);
    ErrorsEmptyIffAcceptable(d);
    if |errs| != 0 then Err(errs) else Ok(Build(d, now))
  }

  /** A stored document read back as an input with every path set. */
  function AsInput(s: Sku): SkuInput {
    SkuInput(Some(s.itemName), Some(s.sku), Some(s.uom), Some(s.minLvl), Some(s.maxLvl),
             Some(s.reorderQty), Some(s.warehouse), Some(s.location), Some(s.openingStock),
             Some(s.currentStock), Some(s.price), Some(s.status), Some(s.addedOn))
  }

  /** Re-validating a stored document gives it back unchanged: trimming is idempotent
      and every default has already been applied. */
  lemma RevalidateStored(s: Sku, now: int)
    requires WellFormed(s)
    ensures Validate(AsInput(s), now) == Ok(s)
  {
    StoredIdempotent(s.itemName);
    StoredIdempotent(s.sku);
    StoredIdempotent(s.uom);
    StoredIdempotent(s.warehouse);
    StoredIdempotent(s.location);
  }

  /** Nothing relates minLvl to maxLvl: raising the minimum level of an accepted
      document above its maximum level keeps it accepted. */
  lemma MinAboveMaxAccepted(d: SkuInput, now: int)
    requires Acceptable(d)
    ensures Validate(d.(minLvl := Some(d.maxLvl.value + 1.0)), now).Ok?
  {
  }

  /** currentStock has no lower bound: an accepted document stays accepted with a
      negative current stock, which is stored as given. */
  lemma NegativeCurrentStockAccepted(d: SkuInput, now: int)
    requires Acceptable(d)
    ensures Validate(d.(currentStock := Some(-1.0)), now).Ok?
    ensures Validate(d.(currentStock := Some(-1.0)), now).value.currentStock == -1.0
  {
  }

  /** The sku values already in a collection. */
  predicate HasSku(coll: seq<Sku>, code: string) {
    exists k :: 0 <= k < |coll| && coll[k].sku == code
  }

  /** No two documents share a sku: what the unique index maintains. */
  predicate DistinctSkus(coll: seq<Sku>) {
    forall i, j :: 0 <= i < j < |coll| ==> coll[i].sku != coll[j].sku
  }

  /** Appending a document with a fresh sku keeps the skus distinct. */
  lemma AppendFreshKeepsDistinct(coll: seq<Sku>, s: Sku)
    requires !HasSku(coll, s.sku)
    ensures DistinctSkus(coll) ==> DistinctSkus(coll + [s])
  {
    if !DistinctSkus(coll) {
      return;
    }
    var c := coll + [s];
    forall i, j | 0 <= i < j < |c|
      ensures c[i].sku != c[j].sku
    {
      if j == |coll| {
        assert c[i] == coll[i];
      } else {
        assert c[i] == coll[i] && c[j] == coll[j];
      }
    }
  }

  /** Saving a new document: validation first, then the unique index on the stored sku. */
  function Insert(coll: seq<Sku>, d: SkuInput, now: int): (r: Result<seq<Sku>>)
    ensures r.Ok? <==> Acceptable(d) && !HasSku(coll, Trim(d.sku.value))
    ensures r.Ok? ==> |r.value| == |coll| + 1 && r.value[..|coll|] == coll
    ensures r.Ok? ==> r.value[|coll|] == Validate(d, now).value
    ensures r.Ok? && DistinctSkus(coll) ==> DistinctSkus(r.value)
    ensures Acceptable(d) && HasSku(coll, Trim(d.sku.value)) ==> r == Err([Duplicate("sku")])
  {
    var v := Validate(d, now);
    if v.Err? then Err(v.errors)
    else if HasSku(coll, v.value.sku) then Err([Duplicate("sku")])
    else
      AppendFreshKeepsDistinct(coll, v.value);
      Ok(coll + [v.value])
  }

  /** Two submissions whose sku differs only by surrounding spaces collide. */
  lemma PaddedSkuCollides(coll: seq<Sku>, d: SkuInput, now: int)
    requires Acceptable(d)
    requires exists k :: 0 <= k < |coll| && coll[k].sku == Trim(d.sku.value)
    ensures Insert(coll, d, now).Err?
  {
  }
}

=== FILE: supplier_schema.dfy ===
/** The Supplier collection's schema (src/models/Supplier.ts): ten required
    trimmed strings, two optional address lines, a unique gstNo and a unique,
    lower-cased emailId. */
module SupplierSchema {
  import opened Values
  import opened Text
  import opened Schema

  /** A supplier document as submitted; any path may be missing. */
  datatype SupplierInput = SupplierInput(
    vendorName: Option<string>,
    contactPersonName: Option<string>,
    contactNumber: Option<string>,
    addressLine1: Option<string>,
    addressLine2: Option<string>,
    addressLine3: Option<string>,
    city: Option<string>,
    state: Option<string>,
    pinCode: Option<string>,
    gstNo: Option<string>,
    emailId: Option<string>,
    whatsappNo: Option<string>,
    addedOn: Option<int>)

  /** A stored supplier document. */
  datatype Supplier = Supplier(
    vendorName: string,
    contactPersonName: string,
    contactNumber: string,
    addressLine1: string,
    addressLine2: Option<string>,
    addressLine3: Option<string>,
    city: string,
    state: string,
    pinCode: string,
    gstNo: string,
    emailId: string,
    whatsappNo: string,
    addedOn: int)

  /** Everything the validators demand: the ten required paths present after trimming. */
  predicate Acceptable(d: SupplierInput) {
    && Present(d.vendorName) && Present(d.contactPersonName) && Present(d.contactNumber)
    && Present(d.addressLine1) && Present(d.city) && Present(d.state) && Present(d.pinCode)
    && Present(d.gstNo) && Present(d.emailId) && Present(d.whatsappNo)
  }

  /** A non-empty stored string with no surrounding whitespace. */
  predicate StoredText(s: string) {
    s != "" && IsTrimmed(s)
  }

  /** What every stored supplier satisfies; the e-mail address has no upper-case letter. */
  predicate WellFormed(s: Supplier) {
    && StoredText(s.vendorName) && StoredText(s.contactPersonName) && StoredText(s.contactNumber)
    && StoredText(s.addressLine1) && StoredText(s.city) && StoredText(s.state)
    && StoredText(s.pinCode) && StoredText(s.gstNo) && StoredText(s.emailId) && StoredText(s.whatsappNo)
    && ToLower(s.emailId) == s.emailId
    && (s.addressLine2.Some? ==> IsTrimmed(s.addressLine2.value))
    && (s.addressLine3.Some? ==> IsTrimmed(s.addressLine3.value))
  }

  function Errors(d: SupplierInput): seq<SchemaError> {
    RequiredText("vendorName", d.vendorName)
    + RequiredText("contactPersonName", d.contactPersonName)
    + RequiredText("contactNumber", d.contactNumber)
    + RequiredText("addressLine1", d.addressLine1)
    + RequiredText("city", d.city)
    + RequiredText("state", d.state)
    + RequiredText("pinCode", d.pinCode)
    + RequiredText("gstNo", d.gstNo)
    + RequiredText("emailId", d.emailId)
    + RequiredText("whatsappNo", d.whatsappNo)
  }

  lemma ErrorsEmptyIffAcceptable(d: SupplierInput)
    ensures |Errors(d)| == 0 <==> Acceptable(d)
  {
  }

  /** The stored e-mail address: the `trim` setter, then the `lowercase` setter. */
  function StoredEmail(v: Option<string>): (r: string)
    ensures IsTrimmed(r) && ToLower(r) == r
    ensures Present(v) ==> r != ""
  {
    var t := Stored(v);
    ToLowerKeepsTrimmed(t);
    ToLowerIdempotent(t);
    ToLower(t)
  }

  /** The stored document for an acceptable input. */
  function Build(d: SupplierInput, now: int): (s: Supplier)
    requires Acceptable(d)
    ensures WellFormed(s)
  {
    Supplier(
      Stored(d.vendorName), Stored(d.contactPersonName), Stored(d.contactNumber),
      Stored(d.addressLine1), StoredOptional(d.addressLine2), StoredOptional(d.addressLine3),
      Stored(d.city), Stored(d.state), Stored(d.pinCode), Stored(d.gstNo),
      StoredEmail(d.emailId), Stored(d.whatsappNo),
      if d.addedOn.Some? then d.addedOn.value else now)
  }

  /** Validation with the schema's setters and defaults; `now` stands for Date.now. */
  function Validate(d: SupplierInput, now: int): (r: Result<Supplier>)
    ensures r.Ok? <==> Acceptable(d)
    ensures r.Err? ==> |r.errors| > 0
    ensures r.Ok? ==> WellFormed(r.value)
    ensures r.Ok? ==> r.value.vendorName == Trim(d.vendorName.value)
    ensures r.Ok? ==> r.value.contactPersonName == Trim(d.contactPersonName.value)
    ensures r.Ok? ==> r.value.contactNumber == Trim(d.contactNumber.value)
    ensures r.Ok? ==> r.value.addressLine1 == Trim(d.addressLine1.value)
    ensures r.Ok? ==> r.value.city == Trim(d.city.value) && r.value.state == Trim(d.state.value)
    ensures r.Ok? ==> r.value.pinCode == Trim(d.pinCode.value)
    ensures r.Ok? ==> r.value.gstNo == Trim(d.gstNo.value)
    ensures r.Ok? ==> r.value.emailId == ToLower(Trim(d.emailId.value))
    ensures r.Ok? ==> r.value.whatsappNo == Trim(d.whatsappNo.value)
    ensures r.Ok? ==> (r.value.addressLine2.None? <==> d.addressLine2.None?)
    ensures r.Ok? && d.addressLine2.Some? ==> r.value.addressLine2 == Some(Trim(d.addressLine2.value))
    ensures r.Ok? ==> (r.value.addressLine3.None? <==> d.addressLine3.None?)
    ensures r.Ok? && d.addressLine3.Some? ==> r.value.addressLine3 == Some(Trim(d.addressLine3.value))
    ensures r.Ok? ==> r.value.addedOn == (if d.addedOn.Some? then d.addedOn.value else now)
  {
    ErrorsEmptyIffAcceptable(d);
    var errs := Errors(d);
    if |errs| != 0 then Err(errs) else Ok(Build(d, now))
  }

  function AsInput(s: Supplier): SupplierInput {
    SupplierInput(Some(s.vendorName), Some(s.contactPersonName), Some(s.contactNumber),
                  Some(s.addressLine1), s.addressLine2, s.addressLine3, Some(s.city), Some(s.state),
                  Some(s.pinCode), Some(s.gstNo), Some(s.emailId), Some(s.whatsappNo), Some(s.addedOn))
  }

  /** Re-validating a stored supplier gives it back unchanged. */
  lemma RevalidateStored(s: Supplier, now: int)
    requires WellFormed(s)
    ensures Validate(AsInput(s), now) == Ok(s)
  {
    StoredIdempotent(s.vendorName);
    StoredIdempotent(s.contactPersonName);
    StoredIdempotent(s.contactNumber);
    StoredIdempotent(s.addressLine1);
    StoredIdempotent(s.city);
    StoredIdempotent(s.state);
    StoredIdempotent(s.pinCode);
    StoredIdempotent(s.gstNo);
    StoredIdempotent(s.emailId);
    StoredIdempotent(s.whatsappNo);
    StoredOptionalIdempotent(s.addressLine2);
    StoredOptionalIdempotent(s.addressLine3);
  }

  predicate HasGstNo(coll: seq<Supplier>, g: string) {
    exists k :: 0 <= k < |coll| && coll[k].gstNo == g
  }

  predicate HasEmail(coll: seq<Supplier>, e: string) {
    exists k :: 0 <= k < |coll| && coll[k].emailId == e
  }

  /** Saving a new supplier: validation, then the unique indexes on gstNo and emailId. */
  function Insert(coll: seq<Supplier>, d: SupplierInput, now: int): (r: Result<seq<Supplier>>)
    ensures r.Ok? <==> Acceptable(d) && !HasGstNo(coll, Trim(d.gstNo.value))
                       && !HasEmail(coll, ToLower(Trim(d.emailId.value)))
    ensures r.Ok? ==> r.value == coll + [Validate(d, now).value]
    ensures Acceptable(d) && HasGstNo(coll, Trim(d.gstNo.value)) ==> r == Err([Duplicate("gstNo")])
  {
    var v := Validate(d, now);
    if v.Err? then Err(v.errors)
    else if HasGstNo(coll, v.value.gstNo) then Err([Duplicate("gstNo")])
    else if HasEmail(coll, v.value.emailId) then Err([Duplicate("emailId")])
    else Ok(coll + [v.value])
  }

  /** Two e-mail addresses that differ only in letter case collide on the unique index:
      after one is saved, the other is rejected. */
  lemma EmailCaseCollision(coll: seq<Supplier>, first: SupplierInput, second: SupplierInput, now: int, later: int)
    requires Insert(coll, first, now).Ok?
    requires Acceptable(second)
    requires SameIgnoringCase(Trim(second.emailId.value), Trim(first.emailId.value))
    ensures Insert(Insert(coll, first, now).value, second, later).Err?
  {
    var c := Insert(coll, first, now).value;
    assert c[|coll|].emailId == ToLower(Trim(first.emailId.value));
    assert HasEmail(c, ToLower(Trim(second.emailId.value)));
  }
}

=== FILE: suppliers_page.dfy ===
/** The suppliers page (src/pages/Suppliers.tsx): name, city and state filters
    over the record shape the page reads (SupplierName, City, State), each a
    case-insensitive equality with a missing field read as ''. */
module SuppliersPage {
  import opened Values
  import opened Text
  import opened Seqs

  /** The properties of a listed supplier that the filters read. */
  datatype SupplierListing = SupplierListing(SupplierName: Option<string>, City: Option<string>, State: Option<string>)

  datatype SupplierFilters = SupplierFilters(name: string, city: string, state: string)

  /** `(field || '').toLowerCase() === input.toLowerCase()`. */
  predicate FieldMatches(field: Option<string>, input: string) {
    SameIgnoringCase(OrEmpty(field), input)
  }

  function ByName(f: SupplierFilters): SupplierListing -> bool { (s: SupplierListing) => FieldMatches(s.SupplierName, f.name) }
  function ByCity(f: SupplierFilters): SupplierListing -> bool { (s: SupplierListing) => FieldMatches(s.City, f.city) }
  function ByState(f: SupplierFilters): SupplierListing -> bool { (s: SupplierListing) => FieldMatches(s.State, f.state) }

  /** filterSuppliers: each non-empty input narrows the list in turn. */
  function FilterSuppliers(suppliers: seq<SupplierListing>, f: SupplierFilters): (r: seq<SupplierListing>)
    ensures |r| <= |suppliers|
  {
    var byName := FilterIf(f.name != "", suppliers, ByName(f));
    var byCity := FilterIf(f.city != "", byName, ByCity(f));
    FilterIf(f.state != "", byCity, ByState(f))
  }

  /** The conjunction of the active filters. */
  predicate Matches(s: SupplierListing, f: SupplierFilters) {
    && (f.name == "" || FieldMatches(s.SupplierName, f.name))
    && (f.city == "" || FieldMatches(s.City, f.city))
    && (f.state == "" || FieldMatches(s.State, f.state))
  }

  lemma FilterSuppliersIsConjunction(suppliers: seq<SupplierListing>, f: SupplierFilters)
    ensures FilterSuppliers(suppliers, f) == Keep(suppliers, s => Matches(s, f))
  {
    var q0 := (s: SupplierListing) => true;
    var q1 := (s: SupplierListing) => q0(s) && (!(f.name != "") || ByName(f)(s));
    var q2 := (s: SupplierListing) => q1(s) && (!(f.city != "") || ByCity(f)(s));
    var q3 := (s: SupplierListing) => Matches(s, f);
    KeepAll(suppliers, q0);
    FilterIfAfterKeep(f.name != "", suppliers, q0, ByName(f), q1);
    FilterIfAfterKeep(f.city != "", suppliers, q1, ByCity(f), q2);
    FilterIfAfterKeep(f.state != "", suppliers, q2, ByState(f), q3);
  }

  /** The result is the order-preserving subsequence of exactly the suppliers that
      satisfy every active filter. */
  lemma FilterSuppliersExact(suppliers: seq<SupplierListing>, f: SupplierFilters, s: SupplierListing)
    ensures IsSubsequence(FilterSuppliers(suppliers, f), suppliers)
    ensures s in FilterSuppliers(suppliers, f) <==> s in suppliers && Matches(s, f)
  {
    FilterSuppliersIsConjunction(suppliers, f);
    KeepIsSubsequence(suppliers, s => Matches(s, f));
    KeepMembership(suppliers, s => Matches(s, f), s);
  }

  /** A supplier with no City (or no State, or no SupplierName) never matches a
      non-empty filter on that field. */
  lemma MissingFieldNeverMatches(suppliers: seq<SupplierListing>, f: SupplierFilters, s: SupplierListing)
    requires || (f.name != "" && s.SupplierName.None?)
             || (f.city != "" && s.City.None?)
             || (f.state != "" && s.State.None?)
    ensures s !in FilterSuppliers(suppliers, f)
  {
    FilterSuppliersExact(suppliers, f, s);
    SameIgnoringCaseProperties("", f.name, "");
    SameIgnoringCaseProperties("", f.city, "");
    SameIgnoringCaseProperties("", f.state, "");
  }

  /** Records shaped like the stored schema carry vendorName, city and state rather
      than SupplierName, City and State; for such records a non-empty name filter
      leaves nothing. */
  lemma NameFilterEmptiesSchemaShapedList(suppliers: seq<SupplierListing>, f: SupplierFilters)
    requires f.name != ""
    requires forall i :: 0 <= i < |suppliers| ==> suppliers[i].SupplierName.None?
    ensures FilterSuppliers(suppliers, f) == []
  {
    var r := FilterSuppliers(suppliers, f);
    if |r| > 0 {
      FilterSuppliersExact(suppliers, f, r[0]);
      MissingFieldNeverMatches(suppliers, f, r[0]);
    }
  }

  /** Empty inputs leave the list unchanged. */
  lemma NoFiltersKeepsAll(suppliers: seq<SupplierListing>)
    ensures FilterSuppliers(suppliers, SupplierFilters("", "", "")) == suppliers
  {
  }

  lemma FilterSuppliersIdempotent(suppliers: seq<SupplierListing>, f: SupplierFilters)
    ensures FilterSuppliers(FilterSuppliers(suppliers, f), f) == FilterSuppliers(suppliers, f)
  {
    FilterSuppliersIsConjunction(suppliers, f);
    FilterSuppliersIsConjunction(FilterSuppliers(suppliers, f), f);
    KeepIdempotent(suppliers, s => Matches(s, f));
  }

  datatype View = View(suppliers: seq<SupplierListing>, filters: SupplierFilters, shown: seq<SupplierListing>)

  /** resetFilters: inputs cleared and the full list shown. */
  function ResetFilters(v: View): (r: View)
    ensures r.suppliers == v.suppliers
    ensures r.filters == SupplierFilters("", "", "")
    ensures r.shown == FilterSuppliers(r.suppliers, r.filters)
  {
    NoFiltersKeepsAll(v.suppliers);
    View(v.suppliers, SupplierFilters("", "", ""), v.suppliers)
  }
}

=== FILE: text.dfy ===
/** The string operations the application relies on: String.prototype.trim,
    toLowerCase, includes, and case-insensitive equality built from them. */
module Text {

  /** ECMAScript WhiteSpace and LineTerminator code points, the set `trim` removes. */
  predicate IsWhitespace(c: char) {
    || c == ' ' || c == '\t' || c == '\n' || c == '\r'
    || c == '\U{000B}' || c == '\U{000C}' || c == '\U{00A0}' || c == '\U{FEFF}'
    || c == '\U{1680}' || ('\U{2000}' <= c <= '\U{200A}')
    || c == '\U{2028}' || c == '\U{2029}' || c == '\U{202F}' || c == '\U{205F}' || c == '\U{3000}'
  }

  /** Removes leading whitespace: the result is the suffix that starts at the first non-space. */
  function TrimStart(s: string): (r: string)
    ensures |r| <= |s| && r == s[|s| - |r|..]
    ensures forall k :: 0 <= k < |s| - |r| ==> IsWhitespace(s[k])
    ensures |r| > 0 ==> !IsWhitespace(r[0])
    decreases |s|
  {
    if |s| > 0 && IsWhitespace(s[0]) then TrimStart(s[1..]) else s
  }

  /** Removes trailing whitespace: the result is the prefix that ends at the last non-space. */
  function TrimEnd(s: string): (r: string)
    ensures |r| <= |s| && r == s[..|r|]
    ensures forall k :: |r| <= k < |s| ==> IsWhitespace(s[k])
    ensures |r| > 0 ==> !IsWhitespace(r[|r| - 1])
    decreases |s|
  {
    if |s| > 0 && IsWhitespace(s[|s| - 1]) then TrimEnd(s[..|s| - 1]) else s
  }

  /** String.prototype.trim: the Mongoose `trim: true` setter applies it before validation. */
  function Trim(s: string): (r: string)
    ensures |r| > 0 ==> !IsWhitespace(r[0]) && !IsWhitespace(r[|r| - 1])
  {
    TrimEnd(TrimStart(s))
  }

  /** Trim removes only whitespace, and only from the two ends. */
  lemma TrimIsInfix(s: string)
    ensures exists i, j :: 0 <= i <= j <= |s| && Trim(s) == s[i..j]
                           && (forall k :: 0 <= k < i ==> IsWhitespace(s[k]))
                           && (forall k :: j <= k < |s| ==> IsWhitespace(s[k]))
  {
    var t := TrimStart(s);
    var r := TrimEnd(t);
    var i := |s| - |t|;
    assert r == s[i..i + |r|];
    forall k | i + |r| <= k < |s|
      ensures IsWhitespace(s[k])
    {
      assert s[k] == t[k - i];
    }
  }

  /** A string is trimmed when neither end is whitespace. */
  predicate IsTrimmed(s: string) {
    |s| > 0 ==> !IsWhitespace(s[0]) && !IsWhitespace(s[|s| - 1])
  }

  /** A trimmed string is a fixed point of Trim. */
  lemma TrimOfTrimmed(s: string)
    requires IsTrimmed(s)
    ensures Trim(s) == s
  {
    assert TrimStart(s) == s;
    assert TrimEnd(s) == s;
  }

  /** Trimming twice is trimming once, so re-validating a stored value does not change it. */
  lemma TrimIdempotent(s: string)
    ensures Trim(Trim(s)) == Trim(s)
  {
    TrimOfTrimmed(Trim(s));
  }

  /** toLowerCase on one character; only the ASCII letters A-Z are mapped. */
  function LowerChar(c: char): (d: char)
    ensures 'A' <= c <= 'Z' ==> d as int == c as int + 32
    ensures !('A' <= c <= 'Z') ==> d == c
  {
    if 'A' <= c <= 'Z' then (c as int + 32) as char else c
  }

  /** String.prototype.toLowerCase, restricted to ASCII case mapping. */
  function ToLower(s: string): (r: string)
    ensures |r| == |s|
    ensures forall k :: 0 <= k < |s| ==> r[k] == LowerChar(s[k])
  {
    seq(|s|, k requires 0 <= k < |s| => LowerChar(s[k]))
  }

  lemma ToLowerIdempotent(s: string)
    ensures ToLower(ToLower(s)) == ToLower(s)
  {
  }

  /** Lower-casing never turns a space into a non-space or back, so it commutes with trimming. */
  lemma ToLowerKeepsTrimmed(s: string)
    requires IsTrimmed(s)
    ensures IsTrimmed(ToLower(s))
  {
  }

  /** `a.toLowerCase() === b.toLowerCase()`. */
  predicate SameIgnoringCase(a: string, b: string) {
    ToLower(a) == ToLower(b)
  }

  /** Case-insensitive equality is an equivalence that never relates the empty
      string to a non-empty one. */
  lemma SameIgnoringCaseProperties(a: string, b: string, c: string)
    ensures SameIgnoringCase(a, a)
    ensures SameIgnoringCase(a, b) ==> SameIgnoringCase(b, a)
    ensures SameIgnoringCase(a, b) && SameIgnoringCase(b, c) ==> SameIgnoringCase(a, c)
    ensures SameIgnoringCase(a, b) ==> |a| == |b|
    ensures SameIgnoringCase("", b) <==> b == ""
  {
  }

  /** String.prototype.includes: `needle` occurs as a contiguous block of `hay`. */
  predicate Contains(hay: string, needle: string) {
    exists i | 0 <= i <= |hay| - |needle| :: OccursAt(hay, needle, i)
  }

  /** `needle` occurs in `hay` starting at position `i`. */
  predicate OccursAt(hay: string, needle: string, i: int) {
    0 <= i <= |hay| - |needle| && hay[i..i + |needle|] == needle
  }

  /** Every string contains itself and the empty string; equality is the special case
      of containment with equal lengths. */
  lemma ContainsProperties(hay: string, needle: string)
    ensures Contains(hay, hay)
    ensures Contains(hay, "")
    ensures Contains(hay, needle) ==> |needle| <= |hay|
    ensures Contains(hay, needle) && |needle| == |hay| ==> needle == hay
  {
    assert OccursAt(hay, hay, 0);
    assert OccursAt(hay, "", 0);
  }
}

=== FILE: transaction_schema.dfy ===
/** The Transaction collection's schema (src/models/Transaction.ts): required
    trimmed sku and itemName, an integer quantity with no sign constraint, a
    four-valued type, an optional trimmed remark and a timestamp defaulting to
    the current time. */
module TransactionSchema {
  import opened Values
  import opened Text
  import opened Schema

  /** The values of the `type` path's enum. */
  datatype Kind = AdjustedIn | AdjustedOut | Purchase | Sale

  /** The stored spelling of each kind. */
  function KindName(k: Kind): string {
    match k
    case AdjustedIn => "Adjusted In"
    case AdjustedOut => "Adjusted Out"
    case Purchase => "Purchase"
    case Sale => "Sale"
  }

  /** The enum check: exact, case-sensitive comparison with the four spellings. */
  function ParseKind(s: string): (r: Option<Kind>)
    ensures r.Some? ==> KindName(r.value) == s
  {
    if s == "Adjusted In" then Some(AdjustedIn)
    else if s == "Adjusted Out" then Some(AdjustedOut)
    else if s == "Purchase" then Some(Purchase)
    else if s == "Sale" then Some(Sale)
    else None
  }

  /** Every kind's spelling is accepted and read back as that kind. */
  lemma ParseKindName(k: Kind)
    ensures ParseKind(KindName(k)) == Some(k)
  {
  }

  /** Number.isInteger on an exact number. */
  predicate IsInteger(q: real) {
    q == q.Floor as real
  }

  /** A transaction document as submitted; any path may be missing. */
  datatype TxInput = TxInput(
    sku: Option<string>,
    itemName: Option<string>,
    quantity: Option<real>,
    kind: Option<string>,
    remarks: Option<string>,
    timestamp: Option<int>)

  /** A stored transaction document. */
  datatype Transaction = Transaction(
    sku: string,
    itemName: string,
    quantity: int,
    kind: Kind,
    remarks: Option<string>,
    timestamp: int)

  /** Everything the schema's validators demand; the quantity may be zero or negative. */
  predicate Acceptable(d: TxInput) {
    && Present(d.sku) && Present(d.itemName)
    && d.quantity.Some? && IsInteger(d.quantity.value)
    && d.kind.Some? && ParseKind(d.kind.value).Some?
  }

  /** What every stored transaction satisfies. */
  predicate WellFormed(t: Transaction) {
    && t.sku != "" && IsTrimmed(t.sku)
    && t.itemName != "" && IsTrimmed(t.itemName)
    && (t.remarks.Some? ==> IsTrimmed(t.remarks.value))
  }

  /** `required` then the integer validator on the quantity path. */
  function QuantityErrors(q: Option<real>): (errs: seq<SchemaError>)
    ensures |errs| == 0 <==> q.Some? && IsInteger(q.value)
    ensures |errs| <= 1
  {
    match q
    case None => [Required("quantity")]
    case Some(x) => if IsInteger(x) then [] else [NotInteger("quantity")]
  }

  /** `required` then `enum` on the type path; an empty string fails `required`. */
  function KindErrors(k: Option<string>): (errs: seq<SchemaError>)
    ensures |errs| == 0 <==> k.Some? && ParseKind(k.value).Some?
    ensures |errs| <= 1
  {
    match k
    case None => [Required("type")]
    case Some(s) =>
      if s == "" then [Required("type")]
      else if ParseKind(s).None? then [NotInEnum("type")]
      else []
  }

  function Errors(d: TxInput): seq<SchemaError> {
    RequiredText("sku", d.sku)
    + RequiredText("itemName", d.itemName)
    + QuantityErrors(d.quantity)
    + KindErrors(d.kind)
  }

  lemma ErrorsEmptyIffAcceptable(d: TxInput)
    ensures |Errors(d)| == 0 <==> Acceptable(d)
  {
  }

  /** Validation with the schema's setters and defaults; `now` stands for Date.now. */
  function Validate(d: TxInput, now: int): (r: Result<Transaction>)
    ensures r.Ok? <==> Acceptable(d)
    ensures r.Err? ==> |r.errors| > 0
    ensures r.Ok? ==> WellFormed(r.value)
    ensures r.Ok? ==> r.value.sku == Trim(d.sku.value) && r.value.itemName == Trim(d.itemName.value)
    ensures r.Ok? ==> r.value.quantity as real == d.quantity.value
    ensures r.Ok? ==> KindName(r.value.kind) == d.kind.value
    ensures r.Ok? ==> (r.value.remarks.None? <==> d.remarks.None?)
    ensures r.Ok? && d.remarks.Some? ==> r.value.remarks == Some(Trim(d.remarks.value))
    ensures r.Ok? ==> r.value.timestamp == (if d.timestamp.Some? then d.timestamp.value else now)
  {
    ErrorsEmptyIffAcceptable(d);
    var errs := Errors(d);
    if |errs| != 0 then Err(errs)
    else
      Ok(Transaction(
        Stored(d.sku), Stored(d.itemName),
        d.quantity.value.Floor,
        ParseKind(d.kind.value).value,
        StoredOptional(d.remarks),
        if d.timestamp.Some? then d.timestamp.value else now))
  }

  /** A stored transaction read back as an input with every path set. */
  function AsInput(t: Transaction): TxInput {
    TxInput(Some(t.sku), Some(t.itemName), Some(t.quantity as real), Some(KindName(t.kind)),
            t.remarks, Some(t.timestamp))
  }

  /** Re-validating a stored transaction gives it back unchanged. */
  lemma RevalidateStored(t: Transaction, now: int)
    requires WellFormed(t)
    ensures Validate(AsInput(t), now) == Ok(t)
  {
    StoredIdempotent(t.sku);
    StoredIdempotent(t.itemName);
    StoredOptionalIdempotent(t.remarks);
    ParseKindName(t.kind);
    var d := AsInput(t);
    assert (t.quantity as real).Floor == t.quantity;
    assert Acceptable(d);
    var r := Validate(d, now);
    assert r.Ok?;
    assert r.value.kind == t.kind;
  }

  /** The quantity has no sign constraint: zero and negative integers are accepted,
      a fractional quantity is not. */
  lemma QuantitySign(d: TxInput, now: int)
    requires Acceptable(d)
    ensures Validate(d.(quantity := Some(0.0)), now).Ok?
    ensures Validate(d.(quantity := Some(-3.0)), now).Ok?
    ensures Validate(d.(quantity := Some(2.5)), now).Err?
    ensures NotInteger("quantity") in Errors(d.(quantity := Some(2.5)))
  {
    assert IsInteger(0.0) && IsInteger(-3.0);
    assert Acceptable(d.(quantity := Some(0.0))) && Acceptable(d.(quantity := Some(-3.0)));
    assert !IsInteger(2.5) by {
      assert (2.5).Floor == 2;
    }
    var bad := d.(quantity := Some(2.5));
    assert QuantityErrors(bad.quantity) == [NotInteger("quantity")];
    var e := Errors(bad);
    var pre := RequiredText("sku", bad.sku) + RequiredText("itemName", bad.itemName);
    assert e == pre + [NotInteger("quantity")] + KindErrors(bad.kind);
    assert e[|pre|] == NotInteger("quantity");
  }

  /** The type enum is case-sensitive: every spelling starts with a capital letter, so
      no lower-cased string, such as "sale", is a kind. */
  lemma KindIsCaseSensitive(s: string)
    ensures ParseKind(ToLower(s)).None?
  {
    var low := ToLower(s);
    if |low| > 0 {
      assert !('A' <= low[0] <= 'Z');
    }
  }
}

=== FILE: transactions_page.dfy ===
/** The transactions page (src/pages/Transactions.tsx): a substring search on the
    product-name column, an exact type filter, and an inclusive date range that
    applies only when both ends are set. */
module TransactionsPage {
  import opened Values
  import opened Text
  import opened Seqs

  /** One table row: [timestamp, transaction id, product name, sku, quantity, type,
      nature]; the timestamp cell is read as a date, here a number. */
  datatype TxRow = TxRow(
    timestamp: int,
    id: string,
    productName: string,
    sku: string,
    quantity: string,
    kind: string,
    nature: string)

  /** The filter inputs. The dates are the instants `new Date(input)` gives for the
      date inputs, which for a 'yyyy-mm-dd' value is midnight UTC at the start of
      that day; an unset date input is None. */
  datatype TxFilters = TxFilters(search: string, kind: string, start: Option<int>, end: Option<int>)

  /** `t[2].toLowerCase().includes(search.toLowerCase())`. */
  function BySearch(f: TxFilters): TxRow -> bool {
    (t: TxRow) => Contains(ToLower(t.productName), ToLower(f.search))
  }

  /** `t[5] === type`. */
  function ByKind(f: TxFilters): TxRow -> bool {
    (t: TxRow) => t.kind == f.kind
  }

  /** `date >= start && date <= end`. */
  function ByDate(f: TxFilters): TxRow -> bool {
    (t: TxRow) => f.start.Some? && f.end.Some? && f.start.value <= t.timestamp <= f.end.value
  }

  /** Whether the date filter runs: `start && end`. */
  predicate DateActive(f: TxFilters) {
    f.start.Some? && f.end.Some?
  }

  /** applyTransactionFilters. */
  function ApplyFilters(txs: seq<TxRow>, f: TxFilters): (r: seq<TxRow>)
    ensures |r| <= |txs|
  {
    var bySearch := FilterIf(f.search != "", txs, BySearch(f));
    var byKind := FilterIf(f.kind != "", bySearch, ByKind(f));
    FilterIf(DateActive(f), byKind, ByDate(f))
  }

  /** The conjunction of the active filters. */
  predicate Matches(t: TxRow, f: TxFilters) {
    && (f.search == "" || Contains(ToLower(t.productName), ToLower(f.search)))
    && (f.kind == "" || t.kind == f.kind)
    && (!DateActive(f) || f.start.value <= t.timestamp <= f.end.value)
  }

  lemma ApplyFiltersIsConjunction(txs: seq<TxRow>, f: TxFilters)
    ensures ApplyFilters(txs, f) == Keep(txs, t => Matches(t, f))
  {
    var q0 := (t: TxRow) => true;
    var q1 := (t: TxRow) => q0(t) && (!(f.search != "") || BySearch(f)(t));
    var q2 := (t: TxRow) => q1(t) && (!(f.kind != "") || ByKind(f)(t));
    var q3 := (t: TxRow) => Matches(t, f);
    KeepAll(txs, q0);
    FilterIfAfterKeep(f.search != "", txs, q0, BySearch(f), q1);
    FilterIfAfterKeep(f.kind != "", txs, q1, ByKind(f), q2);
    FilterIfAfterKeep(DateActive(f), txs, q2, ByDate(f), q3);
  }

  /** The result is the order-preserving subsequence of exactly the rows that satisfy
      every active filter. */
  lemma ApplyFiltersExact(txs: seq<TxRow>, f: TxFilters, t: TxRow)
    ensures IsSubsequence(ApplyFilters(txs, f), txs)
    ensures t in ApplyFilters(txs, f) <==> t in txs && Matches(t, f)
  {
    ApplyFiltersIsConjunction(txs, f);
    KeepIsSubsequence(txs, t => Matches(t, f));
    KeepMembership(txs, t => Matches(t, f), t);
  }

  /** The search is substring matching, not equality: a row is kept whenever the
      search text equals, ignoring case, any slice of its product name. */
  lemma SearchIsSubstring(txs: seq<TxRow>, t: TxRow, search: string, i: int, j: int)
    requires t in txs && 0 <= i <= j <= |t.productName|
    requires ToLower(search) == ToLower(t.productName[i..j])
    ensures t in ApplyFilters(txs, TxFilters(search, "", None, None))
  {
    var name := ToLower(t.productName);
    assert name[i..j] == ToLower(t.productName[i..j]);
    assert OccursAt(name, ToLower(search), i);
    ApplyFiltersExact(txs, TxFilters(search, "", None, None), t);
  }

  /** The type filter is exact and case-sensitive: a set type keeps a row exactly when
      its type cell is spelled the same, so "sale" never selects "Sale". */
  lemma KindIsCaseSensitive(txs: seq<TxRow>, t: TxRow, kind: string)
    requires t in txs && kind != ""
    ensures t in ApplyFilters(txs, TxFilters("", kind, None, None)) <==> t.kind == kind
  {
    ApplyFiltersExact(txs, TxFilters("", kind, None, None), t);
  }

  /** With both dates set the range is inclusive at both ends. */
  lemma DateRangeInclusive(txs: seq<TxRow>, t: TxRow, start: int, end: int)
    requires t in txs && (t.timestamp == start || t.timestamp == end) && start <= end
    ensures t in ApplyFilters(txs, TxFilters("", "", Some(start), Some(end)))
  {
    ApplyFiltersExact(txs, TxFilters("", "", Some(start), Some(end)), t);
  }

  /** The end date is an instant, not a whole day: a transaction stamped after the
      end instant, such as later on the end day, is dropped. */
  lemma AfterEndInstantExcluded(txs: seq<TxRow>, t: TxRow, start: int, end: int)
    requires t.timestamp > end
    ensures t !in ApplyFilters(txs, TxFilters("", "", Some(start), Some(end)))
  {
    ApplyFiltersExact(txs, TxFilters("", "", Some(start), Some(end)), t);
  }

  /** With only one date set no date filtering happens. */
  lemma OneDateIgnored(txs: seq<TxRow>, f: TxFilters)
    requires f.start.None? || f.end.None?
    ensures ApplyFilters(txs, f) == ApplyFilters(txs, f.(start := None, end := None))
  {
  }

  lemma NoFiltersKeepsAll(txs: seq<TxRow>)
    ensures ApplyFilters(txs, TxFilters("", "", None, None)) == txs
  {
  }

  lemma ApplyFiltersIdempotent(txs: seq<TxRow>, f: TxFilters)
    ensures ApplyFilters(ApplyFilters(txs, f), f) == ApplyFilters(txs, f)
  {
    ApplyFiltersIsConjunction(txs, f);
    ApplyFiltersIsConjunction(ApplyFilters(txs, f), f);
    KeepIdempotent(txs, t => Matches(t, f));
  }

  datatype View = View(transactions: seq<TxRow>, filters: TxFilters, shown: seq<TxRow>)

  /** resetTransactionFilters: inputs cleared and every transaction shown. */
  function ResetFilters(v: View): (r: View)
    ensures r.transactions == v.transactions
    ensures r.filters == TxFilters("", "", None, None)
    ensures r.shown == ApplyFilters(r.transactions, r.filters)
  {
    NoFiltersKeepsAll(v.transactions);
    View(v.transactions, TxFilters("", "", None, None), v.transactions)
  }
}

=== FILE: values.dfy ===
/** JavaScript-flavoured value helpers shared by every page and schema model:
    a property that may be missing, the `x || ''` fallback and `x && ...` truthiness. */
module Values {

  /** A property of a JSON record that may be absent. For the pages, which test it with
      `||` or `&&`, None is undefined or null; for the schemas, which apply defaults,
      None is undefined only. */
  datatype Option<+T> = None | Some(value: T)

  /** `x || ''` for a string property: a missing value reads as the empty string. */
  function OrEmpty(o: Option<string>): (r: string)
    ensures o.None? ==> r == ""
    ensures o.Some? ==> r == o.value
  {
    match o
    case None => ""
    case Some(s) => s
  }

  /** JavaScript truthiness of a string property: present and non-empty. */
  predicate Truthy(o: Option<string>) {
    o.Some? && o.value != ""
  }

  lemma TruthyIsNonEmptyOrEmpty(o: Option<string>)
    ensures Truthy(o) <==> OrEmpty(o) != ""
  {
  }
}

=== FILE: vendor_mapping.dfy ===
/** The SKU-vendor mapping page (src/pages/SkuVendorMapping.tsx): the snapshot of
    vendor slots taken on load, the sku and item-name filters, the single-slot
    edit with change detection against the snapshot, and the save that emits one
    mapping per SKU and resets the snapshot. */
module SkuVendorMapping {
  import opened Values
  import opened Text
  import opened Seqs

  /** One SKU row as the page reads it; vendor slots and the item name may be missing. */
  datatype VendorRow = VendorRow(
    sku: string,
    itemName: Option<string>,
    vendor1: Option<string>,
    vendor2: Option<string>,
    vendor3: Option<string>,
    vendor4: Option<string>,
    vendor5: Option<string>)

  /** The five vendor slots with a missing value stored as ''. */
  datatype Vendors = Vendors(vendor1: string, vendor2: string, vendor3: string, vendor4: string, vendor5: string)

  /** The vendor number passed by the five inputs of a row. */
  type Slot = n: int | 1 <= n <= 5 witness 1

  /** `row[`vendor${n}`]`. */
  function VendorAt(row: VendorRow, n: Slot): Option<string> {
    match n
    case 1 => row.vendor1
    case 2 => row.vendor2
    case 3 => row.vendor3
    case 4 => row.vendor4
    case 5 => row.vendor5
  }

  /** `{ ...row, [`vendor${n}`]: v }`. */
  function SetVendor(row: VendorRow, n: Slot, v: string): (r: VendorRow)
    ensures VendorAt(r, n) == Some(v)
    ensures forall m: Slot :: m != n ==> VendorAt(r, m) == VendorAt(row, m)
    ensures r.sku == row.sku && r.itemName == row.itemName
  {
    match n
    case 1 => row.(vendor1 := Some(v))
    case 2 => row.(vendor2 := Some(v))
    case 3 => row.(vendor3 := Some(v))
    case 4 => row.(vendor4 := Some(v))
    case 5 => row.(vendor5 := Some(v))
  }

  /** `{ vendor1: sku.vendor1 || '', ... }`. */
  function Normalize(row: VendorRow): (v: Vendors)
    ensures forall n: Slot :: OrEmpty(VendorAt(row, n)) == SlotOf(v, n)
  {
    Vendors(OrEmpty(row.vendor1), OrEmpty(row.vendor2), OrEmpty(row.vendor3),
            OrEmpty(row.vendor4), OrEmpty(row.vendor5))
  }

  function SlotOf(v: Vendors, n: Slot): string {
    match n
    case 1 => v.vendor1
    case 2 => v.vendor2
    case 3 => v.vendor3
    case 4 => v.vendor4
    case 5 => v.vendor5
  }

  /** The snapshot object keyed by sku. */
  type Snapshot = map<string, Vendors>

  /** Index `i` holds the last row with its sku. */
  predicate LastWithSku(rows: seq<VendorRow>, i: int) {
    0 <= i < |rows| && forall j :: i < j < |rows| ==> rows[j].sku != rows[i].sku
  }

  /** `rows.forEach(sku => snapshot[sku.sku] = {...})`: one entry per sku; when a sku
      repeats, the last row wins. */
  function BuildSnapshot(rows: seq<VendorRow>): (m: Snapshot)
    ensures forall k :: k in m <==> exists i :: 0 <= i < |rows| && rows[i].sku == k
    decreases |rows|
  {
    if |rows| == 0 then map[]
    else
      var init := rows[..|rows| - 1];
      assert forall i :: 0 <= i < |init| ==> init[i] == rows[i];
      BuildSnapshot(init)[rows[|rows| - 1].sku := Normalize(rows[|rows| - 1])]
  }

  /** The entry for each sku is the vendors of the last row carrying it. */
  lemma {:induction false} SnapshotLastWins(rows: seq<VendorRow>, i: int)
    requires LastWithSku(rows, i)
    ensures rows[i].sku in BuildSnapshot(rows) && BuildSnapshot(rows)[rows[i].sku] == Normalize(rows[i])
    decreases |rows|
  {
    var init := rows[..|rows| - 1];
    if i < |rows| - 1 {
      assert LastWithSku(init, i) by {
        forall j | i < j < |init| ensures init[j].sku != init[i].sku {
          assert init[j] == rows[j] && init[i] == rows[i];
        }
      }
      SnapshotLastWins(init, i);
      assert init[i] == rows[i];
    }
  }

  /** A row differs from its snapshot entry in some slot; rows without an entry never do. */
  predicate RowChanged(row: VendorRow, snap: Snapshot) {
    row.sku in snap && snap[row.sku] != Normalize(row)
  }

  /** `rows.some(item => ...)` deciding hasChanges. */
  function AnyChanged(rows: seq<VendorRow>, snap: Snapshot): bool
    decreases |rows|
  {
    if |rows| == 0 then false else RowChanged(rows[0], snap) || AnyChanged(rows[1..], snap)
  }

  /** hasChanges holds exactly when some row with a snapshot entry differs from it. */
  lemma {:induction false} AnyChangedExists(rows: seq<VendorRow>, snap: Snapshot)
    ensures AnyChanged(rows, snap) <==> exists i :: 0 <= i < |rows| && RowChanged(rows[i], snap)
    decreases |rows|
  {
    if |rows| > 0 {
      AnyChangedExists(rows[1..], snap);
      if RowChanged(rows[0], snap) {
      } else {
        assert forall i :: 1 <= i < |rows| ==> rows[i] == rows[1..][i - 1];
      }
    }
  }

  /** The handleVendorChange row update: slot n of every row with the given sku. */
  function UpdateRows(rows: seq<VendorRow>, sku: string, n: Slot, v: string): (r: seq<VendorRow>)
    ensures |r| == |rows|
    ensures forall i :: 0 <= i < |rows| && rows[i].sku != sku ==> r[i] == rows[i]
    ensures forall i :: 0 <= i < |rows| && rows[i].sku == sku ==>
              r[i].sku == sku && r[i].itemName == rows[i].itemName && VendorAt(r[i], n) == Some(v)
              && forall m: Slot :: m != n ==> VendorAt(r[i], m) == VendorAt(rows[i], m)
  {
    MapSeq(rows, (row: VendorRow) => if row.sku == sku then SetVendor(row, n, v) else row)
  }

  /** The page's mapping state: rows, the snapshot taken at load or save, and the flag. */
  datatype MappingState = MappingState(rows: seq<VendorRow>, snapshot: Snapshot, hasChanges: bool)

  /** The state the page mounts with: no rows, an empty snapshot and the flag clear. */
  function Mount(): (st: MappingState)
    ensures st.rows == [] && st.snapshot == map[] && !st.hasChanges
  {
    MappingState([], map[], false)
  }

  /** loadSKUsForVendorMapping, run on mount and by the Refresh button. `response`
      is the fetched list, or None when the request failed. A successful load
      replaces the rows and the snapshot; it never touches hasChanges. A failed load
      leaves the state as it was. */
  function Load(st: MappingState, response: Option<seq<VendorRow>>): (r: MappingState)
    ensures response.None? ==> r == st
    ensures response.Some? ==> r.rows == response.value && r.hasChanges == st.hasChanges
    ensures response.Some? ==> forall k :: k in r.snapshot <==> exists i :: 0 <= i < |r.rows| && r.rows[i].sku == k
    ensures response.Some? ==> forall i :: LastWithSku(r.rows, i) ==> r.rows[i].sku in r.snapshot && r.snapshot[r.rows[i].sku] == Normalize(r.rows[i])
  {
    match response
    case None => st
    case Some(rows) =>
      forall i | LastWithSku(rows, i) ensures rows[i].sku in BuildSnapshot(rows) && BuildSnapshot(rows)[rows[i].sku] == Normalize(rows[i]) {
        SnapshotLastWins(rows, i);
      }
      MappingState(rows, BuildSnapshot(rows), st.hasChanges)
  }

  /** Refresh after an unsaved edit: the flag stays set although the rows now equal
      their fresh snapshot (with distinct skus), so Save stays enabled. */
  lemma StaleFlagSurvivesRefresh(st: MappingState, rows: seq<VendorRow>)
    requires st.hasChanges && DistinctSkus(rows)
    ensures Load(st, Some(rows)).hasChanges
    ensures !AnyChanged(Load(st, Some(rows)).rows, Load(st, Some(rows)).snapshot)
  {
    OwnSnapshotUnchanged(rows);
  }

  /** handleVendorChange: update the rows, then recompute hasChanges against the snapshot. */
  function ChangeVendor(st: MappingState, sku: string, n: Slot, v: string): (r: MappingState)
    ensures r.snapshot == st.snapshot
    ensures r.rows == UpdateRows(st.rows, sku, n, v)
    ensures r.hasChanges <==> exists i :: 0 <= i < |r.rows| && RowChanged(r.rows[i], st.snapshot)
  {
    var rows := UpdateRows(st.rows, sku, n, v);
    AnyChangedExists(rows, st.snapshot);
    MappingState(rows, st.snapshot, AnyChanged(rows, st.snapshot))
  }

  /** No two rows share a sku, as the unique index on the stored SKUs guarantees. */
  predicate DistinctSkus(rows: seq<VendorRow>) {
    forall i, j :: 0 <= i < j < |rows| ==> rows[i].sku != rows[j].sku
  }

  /** Rows compared with their own snapshot show no change when skus are distinct. */
  lemma OwnSnapshotUnchanged(rows: seq<VendorRow>)
    requires DistinctSkus(rows)
    ensures !AnyChanged(rows, BuildSnapshot(rows))
  {
    AnyChangedExists(rows, BuildSnapshot(rows));
    forall i | 0 <= i < |rows|
      ensures !RowChanged(rows[i], BuildSnapshot(rows))
    {
      SnapshotLastWins(rows, i);
    }
  }

  /** After a load, one edit that writes a slot back to its loaded value leaves
      hasChanges false, while writing a different value sets it, whatever the flag
      was before. */
  lemma ChangeDetected(prior: MappingState, rows: seq<VendorRow>, i: int, n: Slot, v: string)
    requires DistinctSkus(rows) && 0 <= i < |rows|
    ensures ChangeVendor(Load(prior, Some(rows)), rows[i].sku, n, v).hasChanges <==> v != OrEmpty(VendorAt(rows[i], n))
  {
    var st := Load(prior, Some(rows));
    var r := ChangeVendor(st, rows[i].sku, n, v);
    SnapshotLastWins(rows, i);
    forall j | 0 <= j < |rows| && j != i
      ensures !RowChanged(r.rows[j], st.snapshot)
    {
      SnapshotLastWins(rows, j);
      assert r.rows[j] == rows[j];
    }
    var a := Normalize(r.rows[i]);
    var b := Normalize(rows[i]);
    assert SlotOf(a, n) == v && SlotOf(b, n) == OrEmpty(VendorAt(rows[i], n));
    assert forall m: Slot :: m != n ==> SlotOf(a, m) == SlotOf(b, m);
    if v == OrEmpty(VendorAt(rows[i], n)) {
      assert forall m: Slot :: SlotOf(a, m) == SlotOf(b, m);
      assert SlotOf(a, 1) == SlotOf(b, 1) && SlotOf(a, 2) == SlotOf(b, 2) && SlotOf(a, 3) == SlotOf(b, 3);
      assert SlotOf(a, 4) == SlotOf(b, 4) && SlotOf(a, 5) == SlotOf(b, 5);
      assert a == b;
      assert !RowChanged(r.rows[i], st.snapshot);
    } else {
      assert RowChanged(r.rows[i], st.snapshot);
    }
  }

  /** A row whose sku has no snapshot entry never makes hasChanges true. */
  lemma RowWithoutEntryIgnored(rows: seq<VendorRow>, snap: Snapshot, extra: VendorRow)
    requires extra.sku !in snap
    ensures AnyChanged(rows + [extra], snap) == AnyChanged(rows, snap)
  {
    AnyChangedExists(rows + [extra], snap);
    AnyChangedExists(rows, snap);
    assert forall i :: 0 <= i < |rows| ==> (rows + [extra])[i] == rows[i];
  }

  /** With a repeated sku the snapshot keeps only the last row, so comparing the rows
      with their own snapshot reports a change. */
  lemma RepeatedSkuReportsChange(a: VendorRow, b: VendorRow)
    requires a.sku == b.sku && Normalize(a) != Normalize(b)
    ensures AnyChanged([a, b], BuildSnapshot([a, b]))
  {
    SnapshotLastWins([a, b], 1);
    AnyChangedExists([a, b], BuildSnapshot([a, b]));
    assert RowChanged([a, b][0], BuildSnapshot([a, b]));
  }

  /** One element of the payload sent by saveVendorMappings. */
  datatype Mapping = Mapping(sku: string, V1: string, V2: string, V3: string, V4: string, V5: string)

  function ToMapping(row: VendorRow): Mapping {
    Mapping(row.sku, OrEmpty(row.vendor1), OrEmpty(row.vendor2), OrEmpty(row.vendor3),
            OrEmpty(row.vendor4), OrEmpty(row.vendor5))
  }

  /** The payload: one mapping per row, in row order, missing slots sent as ''. */
  function Mappings(rows: seq<VendorRow>): (ms: seq<Mapping>)
    ensures |ms| == |rows|
    ensures forall i :: 0 <= i < |rows| ==> ms[i].sku == rows[i].sku
    ensures forall i :: 0 <= i < |rows| ==>
              Vendors(ms[i].V1, ms[i].V2, ms[i].V3, ms[i].V4, ms[i].V5) == Normalize(rows[i])
  {
    MapSeq(rows, ToMapping)
  }

  /** saveVendorMappings; `saved` is whether the request succeeded. On success the
      snapshot is rebuilt from the current rows and the flag cleared; on failure the
      state is left as it was. */
  function Save(st: MappingState, saved: bool): (r: (MappingState, seq<Mapping>))
    ensures r.1 == Mappings(st.rows)
    ensures r.0.rows == st.rows
    ensures saved ==> !r.0.hasChanges
    ensures saved ==> r.0.snapshot == Load(st, Some(st.rows)).snapshot
    ensures !saved ==> r.0 == st
  {
    var payload := Mappings(st.rows);
    if saved then (MappingState(st.rows, BuildSnapshot(st.rows), false), payload) else (st, payload)
  }

  /** After a successful save of rows with distinct skus the snapshot matches every
      row, so the cleared flag agrees with a fresh comparison, and each sent mapping
      equals its row's snapshot entry. */
  lemma SaveSynchronises(st: MappingState)
    requires DistinctSkus(st.rows)
    ensures !AnyChanged(st.rows, Save(st, true).0.snapshot)
    ensures forall i :: 0 <= i < |st.rows| ==>
              var m := Save(st, true).1[i];
              Save(st, true).0.snapshot[m.sku] == Vendors(m.V1, m.V2, m.V3, m.V4, m.V5)
  {
    OwnSnapshotUnchanged(st.rows);
    forall i | 0 <= i < |st.rows|
      ensures st.rows[i].sku in BuildSnapshot(st.rows) && BuildSnapshot(st.rows)[st.rows[i].sku] == Normalize(st.rows[i])
    {
      SnapshotLastWins(st.rows, i);
    }
  }

  /** `String(sku.sku).toLowerCase() === input.toLowerCase()`. */
  function BySku(input: string): VendorRow -> bool {
    (row: VendorRow) => SameIgnoringCase(row.sku, input)
  }

  /** `sku.itemName.toLowerCase() === input.toLowerCase()`, defined when itemName is present. */
  function ByItemName(input: string): VendorRow -> bool {
    (row: VendorRow) => row.itemName.Some? && SameIgnoringCase(row.itemName.value, input)
  }

  /** filterSKUsForVendorMapping. The item-name callback reads `itemName.toLowerCase()`
      and throws when a row reaching it has no itemName; that outcome is None. */
  function FilterRows(rows: seq<VendorRow>, skuInput: string, itemInput: string): (r: Option<seq<VendorRow>>)
    ensures r.None? <==> itemInput != "" && exists i :: 0 <= i < |rows| && rows[i].itemName.None?
                                             && (skuInput == "" || SameIgnoringCase(rows[i].sku, skuInput))
  {
    var bySku := FilterIf(skuInput != "", rows, BySku(skuInput));
    if itemInput != "" && exists i :: 0 <= i < |bySku| && bySku[i].itemName.None? then
      var i :| 0 <= i < |bySku| && bySku[i].itemName.None?;
      KeepMembership(rows, BySku(skuInput), bySku[i]);
      None
    else
      if itemInput != "" then
        forall i | 0 <= i < |rows| && rows[i].itemName.None? && (skuInput == "" || SameIgnoringCase(rows[i].sku, skuInput))
          ensures rows[i] in bySku
        {
          KeepMembership(rows, BySku(skuInput), rows[i]);
        }
        Some(Keep(bySku, ByItemName(itemInput)))
      else Some(bySku)
  }

  /** Both searches, stated row by row. */
  predicate Matches(row: VendorRow, skuInput: string, itemInput: string) {
    && (skuInput == "" || SameIgnoringCase(row.sku, skuInput))
    && (itemInput == "" || (row.itemName.Some? && SameIgnoringCase(row.itemName.value, itemInput)))
  }

  /** When the filter does not throw, the two guarded steps amount to one filter by
      the conjunction of the active searches. */
  lemma FilterRowsIsConjunction(rows: seq<VendorRow>, skuInput: string, itemInput: string)
    requires FilterRows(rows, skuInput, itemInput).Some?
    ensures FilterRows(rows, skuInput, itemInput).value == Keep(rows, row => Matches(row, skuInput, itemInput))
  {
    var q0 := (row: VendorRow) => true;
    var q1 := (row: VendorRow) => q0(row) && (!(skuInput != "") || BySku(skuInput)(row));
    var q2 := (row: VendorRow) => Matches(row, skuInput, itemInput);
    KeepAll(rows, q0);
    FilterIfAfterKeep(skuInput != "", rows, q0, BySku(skuInput), q1);
    FilterIfAfterKeep(itemInput != "", rows, q1, ByItemName(itemInput), q2);
  }

  /** When the filter does not throw, it keeps exactly the rows whose sku and item name
      equal the non-empty inputs ignoring case, as a subsequence of the rows. */
  lemma FilterRowsExact(rows: seq<VendorRow>, skuInput: string, itemInput: string, row: VendorRow)
    requires FilterRows(rows, skuInput, itemInput).Some?
    ensures IsSubsequence(FilterRows(rows, skuInput, itemInput).value, rows)
    ensures row in FilterRows(rows, skuInput, itemInput).value <==>
              row in rows && (skuInput == "" || SameIgnoringCase(row.sku, skuInput))
              && (itemInput == "" || (row.itemName.Some? && SameIgnoringCase(row.itemName.value, itemInput)))
  {
    var bySku := FilterIf(skuInput != "", rows, BySku(skuInput));
    if skuInput != "" {
      KeepIsSubsequence(rows, BySku(skuInput));
      KeepMembership(rows, BySku(skuInput), row);
    } else {
      SubsequenceReflexive(rows);
    }
    if itemInput != "" {
      KeepIsSubsequence(bySku, ByItemName(itemInput));
      KeepMembership(bySku, ByItemName(itemInput), row);
      SubsequenceTransitive(Keep(bySku, ByItemName(itemInput)), bySku, rows);
    }
  }

  datatype View = View(rows: seq<VendorRow>, skuInput: string, itemInput: string, shown: seq<VendorRow>)

  /** resetVendorMappingFilters: inputs cleared and every row shown. */
  function ResetFilters(v: View): (r: View)
    ensures r.rows == v.rows && r.skuInput == "" && r.itemInput == ""
    ensures FilterRows(r.rows, r.skuInput, r.itemInput) == Some(r.shown)
  {
    View(v.rows, "", "", v.rows)
  }
}

=== FILE: warehouse_schema.dfy ===
/** The Warehouse collection's schema (src/models/Warehouse.ts): a unique trimmed
    name stored under vendorName, a location and a manager, and an addedOn
    timestamp defaulting to the current time. */
module WarehouseSchema {
  import opened Values
  import opened Text
  import opened Schema

  datatype WarehouseInput = WarehouseInput(
    vendorName: Option<string>,
    location: Option<string>,
    managerName: Option<string>,
    addedOn: Option<int>)

  datatype Warehouse = Warehouse(
    vendorName: string,
    location: string,
    managerName: string,
    addedOn: int)

  predicate Acceptable(d: WarehouseInput) {
    Present(d.vendorName) && Present(d.location) && Present(d.managerName)
  }

  predicate WellFormed(w: Warehouse) {
    && w.vendorName != "" && IsTrimmed(w.vendorName)
    && w.location != "" && IsTrimmed(w.location)
    && w.managerName != "" && IsTrimmed(w.managerName)
  }

  function Errors(d: WarehouseInput): seq<SchemaError> {
    RequiredText("vendorName", d.vendorName)
    + RequiredText("location", d.location)
    + RequiredText("managerName", d.managerName)
  }

  /** Validation with the schema's setters and defaults; `now` stands for Date.now. */
  function Validate(d: WarehouseInput, now: int): (r: Result<Warehouse>)
    ensures r.Ok? <==> Acceptable(d)
    ensures r.Err? ==> |r.errors| > 0
    ensures r.Err? ==> (Required("managerName") in r.errors <==> !Present(d.managerName))
    ensures r.Ok? ==> WellFormed(r.value)
    ensures r.Ok? ==> r.value.vendorName == Trim(d.vendorName.value)
                      && r.value.location == Trim(d.location.value)
                      && r.value.managerName == Trim(d.managerName.value)
    ensures r.Ok? ==> r.value.addedOn == (if d.addedOn.Some? then d.addedOn.value else now)
  {
    var errs := Errors(d);
    if |errs| != 0 then Err(errs)
    else
      Ok(Warehouse(Stored(d.vendorName), Stored(d.location), Stored(d.managerName),
                   if d.addedOn.Some? then d.addedOn.value else now))
  }

  function AsInput(w: Warehouse): WarehouseInput {
    WarehouseInput(Some(w.vendorName), Some(w.location), Some(w.managerName), Some(w.addedOn))
  }

  /** Re-validating a stored warehouse gives it back unchanged: trimming is idempotent. */
  lemma RevalidateStored(w: Warehouse, now: int)
    requires WellFormed(w)
    ensures Validate(AsInput(w), now) == Ok(w)
  {
    StoredIdempotent(w.vendorName);
    StoredIdempotent(w.location);
    StoredIdempotent(w.managerName);
  }

  predicate HasName(coll: seq<Warehouse>, name: string) {
    exists k :: 0 <= k < |coll| && coll[k].vendorName == name
  }

  /** Saving a new warehouse: validation, then the unique index on the stored name. */
  function Insert(coll: seq<Warehouse>, d: WarehouseInput, now: int): (r: Result<seq<Warehouse>>)
    ensures r.Ok? <==> Acceptable(d) && !HasName(coll, Trim(d.vendorName.value))
    ensures r.Ok? ==> r.value == coll + [Validate(d, now).value]
    ensures Acceptable(d) && HasName(coll, Trim(d.vendorName.value)) ==> r == Err([Duplicate("vendorName")])
  {
    var v := Validate(d, now);
    if v.Err? then Err(v.errors)
    else if HasName(coll, v.value.vendorName) then Err([Duplicate("vendorName")])
    else Ok(coll + [v.value])
  }

  /** Inserting the same warehouse twice: the second attempt is rejected as a duplicate,
      whatever its location, manager or clock. */
  lemma DuplicateNameRejected(coll: seq<Warehouse>, d: WarehouseInput, e: WarehouseInput, now: int, later: int)
    requires Insert(coll, d, now).Ok?
    requires Acceptable(e) && Trim(e.vendorName.value) == Trim(d.vendorName.value)
    ensures Insert(Insert(coll, d, now).value, e, later) == Err([Duplicate("vendorName")])
  {
    var c := Insert(coll, d, now).value;
    assert c[|coll|].vendorName == Trim(d.vendorName.value);
  }
}

=== FILE: warehouses_page.dfy ===
/** The warehouses page (src/pages/Warehouses.tsx): name and manager filters,
    each a case-insensitive equality that drops records missing the field. */
module WarehousesPage {
  import opened Values
  import opened Text
  import opened Seqs

  /** The properties of a listed warehouse that the filters read. */
  datatype WarehouseListing = WarehouseListing(vendorName: Option<string>, managerName: Option<string>)

  datatype WarehouseFilters = WarehouseFilters(name: string, manager: string)

  /** `field && field.toLowerCase() === input.toLowerCase()`. */
  predicate FieldMatches(field: Option<string>, input: string) {
    Truthy(field) && SameIgnoringCase(field.value, input)
  }

  function ByName(f: WarehouseFilters): WarehouseListing -> bool { (w: WarehouseListing) => FieldMatches(w.vendorName, f.name) }
  function ByManager(f: WarehouseFilters): WarehouseListing -> bool { (w: WarehouseListing) => FieldMatches(w.managerName, f.manager) }

  /** filterWarehouses. */
  function FilterWarehouses(warehouses: seq<WarehouseListing>, f: WarehouseFilters): (r: seq<WarehouseListing>)
    ensures |r| <= |warehouses|
  {
    var byName := FilterIf(f.name != "", warehouses, ByName(f));
    FilterIf(f.manager != "", byName, ByManager(f))
  }

  predicate Matches(w: WarehouseListing, f: WarehouseFilters) {
    && (f.name == "" || FieldMatches(w.vendorName, f.name))
    && (f.manager == "" || FieldMatches(w.managerName, f.manager))
  }

  lemma FilterWarehousesIsConjunction(warehouses: seq<WarehouseListing>, f: WarehouseFilters)
    ensures FilterWarehouses(warehouses, f) == Keep(warehouses, w => Matches(w, f))
  {
    var q0 := (w: WarehouseListing) => true;
    var q1 := (w: WarehouseListing) => q0(w) && (!(f.name != "") || ByName(f)(w));
    var q2 := (w: WarehouseListing) => Matches(w, f);
    KeepAll(warehouses, q0);
    FilterIfAfterKeep(f.name != "", warehouses, q0, ByName(f), q1);
    FilterIfAfterKeep(f.manager != "", warehouses, q1, ByManager(f), q2);
  }

  /** The result is the order-preserving subsequence of exactly the warehouses that
      satisfy both active filters; one missing the filtered field is dropped. */
  lemma FilterWarehousesExact(warehouses: seq<WarehouseListing>, f: WarehouseFilters, w: WarehouseListing)
    ensures IsSubsequence(FilterWarehouses(warehouses, f), warehouses)
    ensures w in FilterWarehouses(warehouses, f) <==> w in warehouses && Matches(w, f)
    ensures f.name != "" && !Truthy(w.vendorName) ==> w !in FilterWarehouses(warehouses, f)
    ensures f.manager != "" && !Truthy(w.managerName) ==> w !in FilterWarehouses(warehouses, f)
  {
    FilterWarehousesIsConjunction(warehouses, f);
    KeepIsSubsequence(warehouses, w => Matches(w, f));
    KeepMembership(warehouses, w => Matches(w, f), w);
  }

  lemma NoFiltersKeepsAll(warehouses: seq<WarehouseListing>)
    ensures FilterWarehouses(warehouses, WarehouseFilters("", "")) == warehouses
  {
  }

  lemma FilterWarehousesIdempotent(warehouses: seq<WarehouseListing>, f: WarehouseFilters)
    ensures FilterWarehouses(FilterWarehouses(warehouses, f), f) == FilterWarehouses(warehouses, f)
  {
    FilterWarehousesIsConjunction(warehouses, f);
    FilterWarehousesIsConjunction(FilterWarehouses(warehouses, f), f);
    KeepIdempotent(warehouses, w => Matches(w, f));
  }

  datatype View = View(warehouses: seq<WarehouseListing>, filters: WarehouseFilters, shown: seq<WarehouseListing>)

  /** resetFilters: inputs cleared and the full list shown. */
  function ResetFilters(v: View): (r: View)
    ensures r.warehouses == v.warehouses
    ensures r.filters == WarehouseFilters("", "")
    ensures r.shown == FilterWarehouses(r.warehouses, r.filters)
  {
    NoFiltersKeepsAll(v.warehouses);
    View(v.warehouses, WarehouseFilters("", ""), v.warehouses)
  }
}
